=== FILE: README.md ===
# http-testserver dispatch core, modelled in Dafny

This project models the decision logic of the Commonjava http-testserver, an embeddable mock HTTP
server for test suites. Tests register expected request/response pairs or synthetic errors, start
a listener on a local port, and later ask how often each path was requested.

The model covers four parts of the Java code:

- **The core `ExpectationServlet`** (`expectation_servlet.dfy`). It keeps three maps keyed by
  access key (`METHOD + " " + path`): expectations, errors and access counts. Registration reduces
  a URL to its file part (path plus query). `service` counts every request under its whole path,
  query included. It then looks the request up twice: first under the whole path, then, only when
  a query was present, under the bare URI. At each key a registered error beats an expectation.
  The reply is rendered per response variant.
- **The `ExpectationServer` façade** (`expectation_server.dfy`). It covers the fixed-port
  constructor and the port decision in `start`: one attempt on the fixed port, then a random
  search. It also covers the overloads that expand into GET plus HEAD registrations, the
  delegating accessors, and `stop`.
- **`PortFinder.findPortFor`** (`port_finder.dfy`). This is a bounded retry over random
  candidates `1024 + Math.abs(r) % 30000`, using Java 32-bit arithmetic (`java_int.dfy`).
- **The legacy `TestHttpServer`** and its inner servlet (`test_http_server.dfy`). Its rules
  differ from the core servlet: the query is dropped at registration, the request key uses the
  decoded URI path, there is no second lookup tier, an error's body is written after
  `sendError(code)`, and `registerException(url, …)` registers GET only.

Shared pieces:
- `access_keys.dfy`: ASCII upper-casing, the access key and its inverse `SplitKey`, and the two
  map updates (`put`, and `merge(key, 1, Integer::sum)`).
- `http.dfy`: response contents, requests and replies.
- `wrappers.dfy`: `Option` for Java's null and `Result` for thrown exceptions.

Everything is a pure function over immutable values. Collaborators the model cannot see are
passed in as parameters:
- `java.net.URL`/`URI` parsing is an oracle `string -> Option<string>`; `None` means the
  constructor threw.
- Deploying and binding an Undertow listener is an oracle `bind(attempt, port)`. It returns a
  bound listener, a `ServletException`, or an unchecked exception. Every attempt builds and
  starts a fresh server, so the oracle is indexed by the attempt (the fixed-port try, or the
  j-th random attempt): one port may fail on one attempt and bind on a later one.
- `findPortFor`'s consumer is likewise indexed by the call number.
- The `Random.nextInt()` draws are a function `draw(i)` for attempt `i`.
- Handlers and body streams are opaque tokens.

The model follows the code in these easily misread points:
- The core servlet answers an error that has a body with `sendError(code, body)`, not with a
  status plus a written body.
- An unmatched request gets only `setStatus(404)`. Nothing is written.
- `findPortFor` retries only on `IOException`. `start` turns a `ServletException` into one, but
  any unchecked exception from building or starting the listener ends the search at once.
- The legacy base resource is kept verbatim; it is not given a leading "/".

## Model

| member | source | states |
|---|---|---|
| ExpectationServlet.BaseResource | core/src/main/java/org/commonjava/test/http/expect/ExpectationServlet.java:65-77 | the stored base resource always starts with "/": null gives "/", a base already starting with "/" is kept, otherwise it is the base with at most one character prefixed |
| ExpectationServlet.BaseResourceIdempotent | core/src/main/java/org/commonjava/test/http/expect/ExpectationServlet.java:65-77 | normalising an already normalised base resource changes nothing |
| ExpectationServlet.Init | core/src/main/java/org/commonjava/test/http/expect/ExpectationServlet.java:51-77 | a new servlet has the normalised base resource and empty expectation, error and access maps |
| AccessKeys.ToUpperIgnoresCase | core/src/main/java/org/commonjava/test/http/expect/ExpectationServlet.java:102-105 | upper-casing maps two methods to the same string exactly when they differ only in letter case |
| AccessKeys.AccessKeyCaseInsensitive | core/src/main/java/org/commonjava/test/http/expect/ExpectationServlet.java:102-105 | methods differing only in case share one access key for every path |
| AccessKeys.ToUpper | core/src/main/java/org/commonjava/test/http/expect/ExpectationServlet.java:104 | upper-casing keeps the length and maps every character to its ASCII upper-case form |
| AccessKeys.SplitAccessKey | core/src/main/java/org/commonjava/test/http/expect/ExpectationServlet.java:102-105 | `AccessKey` (`getAccessKey`) loses nothing: for a method without a space, splitting its key at the first space gives back the upper-cased method and the path |
| AccessKeys.GetHeadKeysDistinct | core/src/main/java/org/commonjava/test/http/expect/ExpectationServlet.java:102-105 | GET and HEAD registrations for one path never share a key |
| AccessKeys.AccessKeyInjective | core/src/main/java/org/commonjava/test/http/expect/ExpectationServlet.java:102-105 | two access keys of space-free methods are equal if and only if the methods agree up to case and the paths are equal |
| AccessKeys.AccessKeySameMethod | core/src/main/java/org/commonjava/test/http/expect/ExpectationServlet.java:102-105 | with one method, distinct paths give distinct keys |
| AccessKeys.CountAccess | core/src/main/java/org/commonjava/test/http/expect/ExpectationServlet.java:153 | merge starts an absent count at 1, adds 1 (as a Java int) to a present one, and changes no other key |
| AccessKeys.CountAccessAddsOne | core/src/main/java/org/commonjava/test/http/expect/ExpectationServlet.java:153 | below the int limit the count at the counted key grows by exactly one and every other count is unchanged |
| ExpectationServlet.GetPath | core/src/main/java/org/commonjava/test/http/expect/ExpectationServlet.java:107-118 | a parseable URL is reduced to its file part; an unparseable string is kept verbatim and registration never fails |
| ExpectationServlet.PutExpectation | core/src/main/java/org/commonjava/test/http/expect/ExpectationServlet.java:120-145 | an expectation registration rebinds exactly its own key; errors, counts and other keys are unchanged |
| ExpectationServlet.Expect | core/src/main/java/org/commonjava/test/http/expect/ExpectationServlet.java:120-126 | `expect` with a String body writes exactly `expectations[key]`, with the body or (null body) the status alone; nothing else changes |
| ExpectationServlet.ExpectStream | core/src/main/java/org/commonjava/test/http/expect/ExpectationServlet.java:128-136 | `expect` with a stream writes exactly `expectations[key]` with that stream; nothing else changes |
| ExpectationServlet.ExpectHandler | core/src/main/java/org/commonjava/test/http/expect/ExpectationServlet.java:138-145 | `expect` with a handler writes exactly `expectations[key]` with that handler; nothing else changes |
| ExpectationServlet.RegisterException | core/src/main/java/org/commonjava/test/http/expect/ExpectationServlet.java:94-100 | `registerException` writes exactly `errors[key]`; expectations, counts and other keys are unchanged |
| ExpectationServlet.ExpectReplaces | core/src/main/java/org/commonjava/test/http/expect/ExpectationServlet.java:120-126 | re-registering at the same method and URL replaces the earlier registration |
| ExpectationServlet.WholePath | core/src/main/java/org/commonjava/test/http/expect/ExpectationServlet.java:241-254 | the whole path extends the URI, and equals it exactly when there is no query; otherwise it is the URI, "?" and the query |
| ExpectationServlet.SimplePath | core/src/main/java/org/commonjava/test/http/expect/ExpectationServlet.java:256-259 | the simple path is a prefix of the whole path and differs from it exactly when the request has a query; with a query, the whole path is the simple path followed by "?" and the query, so the simple path is the URI alone |
| ExpectationServlet.RenderError | core/src/main/java/org/commonjava/test/http/expect/ExpectationServlet.java:177-200 | an error is delegated if and only if it holds a handler, and then to that same handler; with a body it is `sendError(code, body)`, with a stream `setStatus(code)` then the copy of that stream, with neither `sendError(code)` |
| ExpectationServlet.RenderExpectation | core/src/main/java/org/commonjava/test/http/expect/ExpectationServlet.java:203-233 | an expectation is delegated if and only if it holds a handler, and then to that same handler; otherwise it sets its code and then writes its body string, copies its stream, or writes nothing, one case per kind of content |
| ExpectationServlet.Handle | core/src/main/java/org/commonjava/test/http/expect/ExpectationServlet.java:173-236 | a key is handled exactly when an error or an expectation is registered at it |
| ExpectationServlet.Service | core/src/main/java/org/commonjava/test/http/expect/ExpectationServlet.java:147-171 | registrations are untouched; the count at the whole-path key is started or incremented and no other count changes; an error at the whole path wins, then an expectation there; the bare URI is tried only with a query and only when nothing is registered at the whole path; otherwise 404 |
| ExpectationServlet.WholePathBeatsBareError | core/src/main/java/org/commonjava/test/http/expect/ExpectationServlet.java:155-170 | a whole-path expectation answers even when an error is registered at the bare URI |
| ExpectationServlet.ErrorWinsInEitherOrder | core/src/main/java/org/commonjava/test/http/expect/ExpectationServlet.java:173-236 | with an error and an expectation at one key, the request gets the error whichever was registered first |
| ExpectationServlet.ExpectThenServe | core/src/main/java/org/commonjava/test/http/expect/ExpectationServlet.java:120-171 | round trip: a request matching a registration's method (up to case) and path gets the registered code and body, unless an error is registered there |
| ExpectationServlet.ExpectStreamThenServe | core/src/main/java/org/commonjava/test/http/expect/ExpectationServlet.java:128-233 | round trip for a stream: a matching request gets the registered code and a copy of the registered stream, unless an error is registered there |
| ExpectationServlet.ServeAll | core/src/main/java/org/commonjava/test/http/expect/ExpectationServlet.java:147-171 | serving a sequence of requests never changes the registrations or the base resource |
| ExpectationServlet.ServeAllCounts | core/src/main/java/org/commonjava/test/http/expect/ExpectationServlet.java:151-153 | after a trace of requests every count has grown by exactly the number of requests counted under its key, matched or not |
| ExpectationServlet.NoHits | core/src/main/java/org/commonjava/test/http/expect/ExpectationServlet.java:151-153 | a trace counts nothing under a key exactly when none of its requests has that whole-path key |
| ExpectationServlet.AllHits | core/src/main/java/org/commonjava/test/http/expect/ExpectationServlet.java:151-153 | every request of a trace is counted under a key exactly when all of them have that whole-path key |
| ExpectationServlet.GetAccessesFor | core/src/main/java/org/commonjava/test/http/expect/ExpectationServlet.java:271-274 | the count at the method and path's access key, null when that key was never requested |
| ExpectationServlet.GetAccessesForGet | core/src/main/java/org/commonjava/test/http/expect/ExpectationServlet.java:266-269 | the single-argument form reads the GET count |
| JavaInt.Wrap | core/src/main/java/org/commonjava/test/http/util/PortFinder.java:36 | 32-bit two's-complement reduction: identity in range, one wrap-around just outside it |
| JavaInt.Abs | core/src/main/java/org/commonjava/test/http/util/PortFinder.java:36 | `Math.abs` is exact except on `Integer.MIN_VALUE`, which it returns unchanged |
| JavaInt.Rem | core/src/main/java/org/commonjava/test/http/util/PortFinder.java:36 | Java `%` has the sign of the dividend and the magnitude of the mathematical remainder of the magnitudes |
| JavaInt.Add | core/src/main/java/org/commonjava/test/http/util/PortFinder.java:36 | int addition is exact in range and wraps by 2^32 outside it |
| PortFinder.CandidatePort | core/src/main/java/org/commonjava/test/http/util/PortFinder.java:36 | for every draw except `Integer.MIN_VALUE` the candidate is 1024 plus the draw's magnitude modulo 30000, so it lies in [1024, 31023]; for `Integer.MIN_VALUE` it is -22624 |
| PortFinder.SearchFrom | core/src/main/java/org/commonjava/test/http/util/PortFinder.java:34-47 | the loop tries at most the remaining budget, attempt j uses the j-th draw, every call but the last threw `IOException`, and the last decides: a result, an exception passed through, or exhaustion after the full budget |
| PortFinder.ShiftSearch | core/src/main/java/org/commonjava/test/http/util/PortFinder.java:38-44 | an attempt that threw `IOException` followed by the rest of the loop keeps all of the loop's guarantees |
| PortFinder.FindPortFor | core/src/main/java/org/commonjava/test/http/util/PortFinder.java:32-48 | the consumer is called at most `maxTries` times and never when `maxTries` ≤ 0; the first non-`IOException` attempt ends the search; `maxTries` failures throw `IllegalStateException` |
| PortFinder.FirstNonIOAttemptDecides | core/src/main/java/org/commonjava/test/http/util/PortFinder.java:38-44 | when attempt k is the first not to throw `IOException`, exactly k + 1 candidates are tried and that attempt's result or exception is the outcome |
| PortFinder.AllIOFailuresExhaust | core/src/main/java/org/commonjava/test/http/util/PortFinder.java:34-47 | when every attempt throws `IOException`, all `maxTries` candidates are tried and the search is exhausted |
| PortFinder.ExhaustedMeansAllIOFailures | core/src/main/java/org/commonjava/test/http/util/PortFinder.java:34-47 | conversely, `IllegalStateException` is thrown only after every one of the `maxTries` calls threw `IOException` |
| PortFinder.FoundAfterIOFailures | core/src/main/java/org/commonjava/test/http/util/PortFinder.java:34-44 | a returned result came from the last call, on the candidate of that attempt's draw, and every earlier call threw `IOException` |
| PortFinder.Tried | core/src/main/java/org/commonjava/test/http/util/PortFinder.java:34-36 | the first n candidates, the j-th drawn from draw j |
| ExpectationServer.New | core/src/main/java/org/commonjava/test/http/expect/ExpectationServer.java:55-77 | the port is kept only when it is at least 80; otherwise it stays unset; no listener exists yet |
| ExpectationServer.Consumer | core/src/main/java/org/commonjava/test/http/expect/ExpectationServer.java:127-140 | in the random search a `ServletException` counts as an `IOException` (retried) and an unchecked exception propagates |
| ExpectationServer.Start | core/src/main/java/org/commonjava/test/http/expect/ExpectationServer.java:110-143 | a valid fixed port that binds on its try is used as is; in every other case the result is the random search's; on success the servlet is unchanged and the recorded port is the one some attempt within the budget bound the listener on |
| ExpectationServer.StartRandom | core/src/main/java/org/commonjava/test/http/expect/ExpectationServer.java:124-143 | the random branch succeeds on one of the first 16 candidates with the listener its attempt bound there; it throws `IllegalStateException` only when all 16 attempts met a `ServletException`, and passes on an unchecked exception that one of them raised |
| ExpectationServer.SearchFoundByBinding | core/src/main/java/org/commonjava/test/http/expect/ExpectationServer.java:127-142 | a successful search got its listener from its last attempt, on that attempt's candidate, and every earlier attempt met a `ServletException` |
| ExpectationServer.SearchExhaustedByBinding | core/src/main/java/org/commonjava/test/http/expect/ExpectationServer.java:127-140 | an exhausted search met a `ServletException` on every one of its 16 attempts |
| ExpectationServer.SearchPropagatedByBinding | core/src/main/java/org/commonjava/test/http/expect/ExpectationServer.java:127-140 | an unchecked exception leaving the search was raised by its last attempt, on that attempt's candidate |
| ExpectationServer.StartWithoutFixedPort | core/src/main/java/org/commonjava/test/http/expect/ExpectationServer.java:124-143 | without a fixed port, when attempts 0..k-1 meet `ServletException` and attempt k binds, candidate k becomes the port with that attempt's listener |
| ExpectationServer.FailedFixedPortFallsBack | core/src/main/java/org/commonjava/test/http/expect/ExpectationServer.java:111-143 | any failure of the fixed-port try falls through to the random search, whose first attempt then decides |
| ExpectationServer.Stop | core/src/main/java/org/commonjava/test/http/expect/ExpectationServer.java:84-91 | `stop` acts exactly when a listener exists |
| ExpectationServer.StopAfterNewOrStart | core/src/main/java/org/commonjava/test/http/expect/ExpectationServer.java:84-91 | `stop` on a server that was never started is a no-op; after a successful start it stops the listener bound to the recorded port |
| ExpectationServer.ExpectGetHead | core/src/main/java/org/commonjava/test/http/expect/ExpectationServer.java:224-229 | `expect(url, code, body)` adds exactly two entries, GET with the body and HEAD with the code alone; every other entry, the errors, the counts, the port and the listener are unchanged |
| ExpectationServer.ExpectStreamGetHead | core/src/main/java/org/commonjava/test/http/expect/ExpectationServer.java:237-242 | `expect(url, code, stream)` adds exactly two entries, GET with the stream and HEAD with the code alone; nothing else changes |
| ExpectationServer.ExpectFor | core/src/main/java/org/commonjava/test/http/expect/ExpectationServer.java:231-235 | the method-bearing String overload rebinds exactly that method's key for the path, with the body or the code alone; nothing else changes |
| ExpectationServer.ExpectStreamFor | core/src/main/java/org/commonjava/test/http/expect/ExpectationServer.java:244-249 | the method-bearing stream overload rebinds exactly that method's key, with the stream or the code alone; nothing else changes |
| ExpectationServer.ExpectHandlerFor | core/src/main/java/org/commonjava/test/http/expect/ExpectationServer.java:251-254 | the handler overload rebinds exactly that method's key with the handler; nothing else changes |
| ExpectationServer.RegisterExceptionHeadGet | core/src/main/java/org/commonjava/test/http/expect/ExpectationServer.java:213-217 | `registerException(url, error, code)` adds exactly the HEAD and GET error entries with the same code and body; expectations, counts, port and listener are unchanged |
| ExpectationServer.RegisterExceptionDefault | core/src/main/java/org/commonjava/test/http/expect/ExpectationServer.java:202-206 | `registerException(url, error)` is the HEAD-and-GET registration with code 500 |
| ExpectationServer.RegisterExceptionFor | core/src/main/java/org/commonjava/test/http/expect/ExpectationServer.java:219-222 | the method-bearing error overload rebinds exactly that method's error key; nothing else changes |
| ExpectationServer.RegisterExceptionForDefault | core/src/main/java/org/commonjava/test/http/expect/ExpectationServer.java:208-211 | the method-bearing error overload without a code uses 500 for that method only |
| ExpectationServer.RegisterExceptionCoversHeadAndGet | core/src/main/java/org/commonjava/test/http/expect/ExpectationServer.java:202-217 | after the method-less error overload both GET and HEAD requests for that path get the error |
| ExpectationServer.GetAccessKey | core/src/main/java/org/commonjava/test/http/expect/ExpectationServer.java:256-264 | the delegated access key splits back into the upper-cased method and the path |
| ExpectationServer.GetAccessesFor | core/src/main/java/org/commonjava/test/http/expect/ExpectationServer.java:266-269 | `getAccessesFor(path)` reads the count at `"GET " + path` |
| ExpectationServer.GetAccessesForMethod | core/src/main/java/org/commonjava/test/http/expect/ExpectationServer.java:271-274 | `getAccessesFor(method, path)` reads the count at that method's key |
| ExpectationServer.AccessesAfterGet | core/src/main/java/org/commonjava/test/http/expect/ExpectationServer.java:266-269 | a GET of a path without a query makes `getAccessesFor(path)` read one more than before (1 on the first request) |
| ExpectationServer.TwoQueryVariantsRegistered | junit4/src/test/java/org/commonjava/test/http/junt4/TestHttpServerTest.java:72-79 | registering two query variants of one path through GET/HEAD `expect` on a fresh server leaves exactly the four GET/HEAD keys of the two variants, four distinct entries, with each GET key holding its own body, and no errors |
| ExpectationServer.ServedQueryVariant | core/src/main/java/org/commonjava/test/http/expect/ExpectationServlet.java:147-171 | a GET with a query is answered from the text expectation registered at the path with that query |
| ExpectationServer.BarePathNotFound | core/src/main/java/org/commonjava/test/http/expect/ExpectationServlet.java:147-171 | with only query-variant entries registered, the path without a query gets 404 |
| ExpectationServer.QueryVariantsIndependent | junit4/src/test/java/org/commonjava/test/http/junt4/TestHttpServerTest.java:62-87 | two registrations for one path with different queries answer with their own bodies, and on a fresh server the path without a query is not found (the `setStatus(404)` branch of `service`, `core/src/main/java/org/commonjava/test/http/expect/ExpectationServlet.java:167-170`, via `ExpectationServer.BarePathNotFound`) |
| TestHttpServer.BaseResource | src/main/java/org/commonjava/test/http/TestHttpServer.java:137-140 | null gives "/", any other base is kept verbatim |
| TestHttpServer.BaseResourceVersusCore | src/main/java/org/commonjava/test/http/TestHttpServer.java:137-140 | the legacy and core constructors agree exactly on bases that already start with "/" |
| TestHttpServer.Init | src/main/java/org/commonjava/test/http/TestHttpServer.java:123-140 | a new legacy servlet has the verbatim base resource and empty maps |
| TestHttpServer.GetPath | src/main/java/org/commonjava/test/http/TestHttpServer.java:165-178 | a parseable URL is reduced to its path without query; an unparseable string is kept verbatim |
| TestHttpServer.RegisterException | src/main/java/org/commonjava/test/http/TestHttpServer.java:157-163 | writes exactly `errors[key]`; nothing else changes |
| TestHttpServer.Expect | src/main/java/org/commonjava/test/http/TestHttpServer.java:180-187 | writes exactly `expectations[key]` with the body or (null body) the status alone; nothing else changes |
| TestHttpServer.ExpectStream | src/main/java/org/commonjava/test/http/TestHttpServer.java:189-199 | writes exactly `expectations[key]` with the stream; nothing else changes |
| TestHttpServer.SamePathRegistrationsCollide | src/main/java/org/commonjava/test/http/TestHttpServer.java:165-187 | two URLs with the same path (differing only in query) share one entry and the later registration overwrites the earlier |
| TestHttpServer.RenderError | src/main/java/org/commonjava/test/http/TestHttpServer.java:239-252 | an error is `sendError(code)` followed by writing its body exactly when it has one |
| TestHttpServer.RenderExpectation | src/main/java/org/commonjava/test/http/TestHttpServer.java:255-273 | an expectation sets its code, then writes the body string when it has one, copies the stream when it has one, and writes nothing when it has neither |
| TestHttpServer.RequestKey | src/main/java/org/commonjava/test/http/TestHttpServer.java:205-224 | the request key exists exactly when the URI parses, and is the upper-cased method, a space and the decoded path |
| TestHttpServer.Service | src/main/java/org/commonjava/test/http/TestHttpServer.java:201-276 | an unparseable URI throws with nothing counted; otherwise registrations are untouched, the count at the request key is started or incremented with no other change, and the reply is the error, else the expectation, else 404 |
| TestHttpServer.ServiceIgnoresQuery | src/main/java/org/commonjava/test/http/TestHttpServer.java:205-224 | requests differing only in query are served identically (no query tier) |
| TestHttpServer.ExpectThenServe | src/main/java/org/commonjava/test/http/TestHttpServer.java:180-273 | round trip: a request whose method matches up to case and whose decoded path is the registered path gets the code and body, and is counted |
| TestHttpServer.ExpectStreamThenServe | src/main/java/org/commonjava/test/http/TestHttpServer.java:189-273 | round trip for a stream: a matching request gets the registered code and a copy of the registered stream, and is counted |
| TestHttpServer.ErrorWinsInEitherOrder | src/main/java/org/commonjava/test/http/TestHttpServer.java:238-256 | a registered error beats an expectation at the same key in either registration order |
| TestHttpServer.ExpectGetHead | src/main/java/org/commonjava/test/http/TestHttpServer.java:340-345 | `expect(url, code, body)` adds exactly the GET entry with the body and the HEAD entry with the code alone; errors, counts and base are unchanged |
| TestHttpServer.ExpectStreamGetHead | src/main/java/org/commonjava/test/http/TestHttpServer.java:353-358 | `expect(url, code, stream)` adds exactly the GET entry with the stream and the HEAD entry with the code alone; nothing else changes |
| TestHttpServer.RegisterExceptionGet | src/main/java/org/commonjava/test/http/TestHttpServer.java:330-333 | `registerException(url, error, code)` rebinds exactly the GET error key; the HEAD error entry is left as it was and nothing else changes |
| TestHttpServer.RegisterExceptionGetDefault | src/main/java/org/commonjava/test/http/TestHttpServer.java:320-323 | `registerException(url, error)` registers GET only, code 500 |
| TestHttpServer.RegisterExceptionForDefault | src/main/java/org/commonjava/test/http/TestHttpServer.java:325-328 | `registerException(method, url, error)` registers that method with code 500 |
| TestHttpServer.RegisterExceptionLeavesHead | src/main/java/org/commonjava/test/http/TestHttpServer.java:320-345 | after GET/HEAD `expect` and the method-less error overload, HEAD still gets its expectation while GET gets the error |

The legacy method-bearing overloads `expect(method, …)` and `registerException(method, url, code,
error)` (`TestHttpServer.java:335-338,347-351,360-364`) pass their arguments straight to the inner
servlet. They are modelled by `TestHttpServer.Expect`, `TestHttpServer.ExpectStream` and
`TestHttpServer.RegisterException` themselves.

## Left out

- Undertow deployment and listener binding inside `start`. Only the branch decision is modelled;
  binding is the `bind` oracle. This is framework I/O.
- Start: a fixed-port attempt that fails inside `server.start()` has already stored the built
  server in the `server` field (`ExpectationServer.java:115`). The model records a listener only
  on success, so `stop` after a failed start is not modelled for that case.
- `java.net.URL`/`URI` parsing and `UrlUtils` are oracles. `formatUrl`, `formatPath`,
  `getBaseUri` and `getUrlPath` depend on them and are not modelled.
- `ContentResponse` (both classes) is not modelled from its code. The model assumes that each of
  its constructors sets only the field it is given, and represents it as a union: a handler, or a
  code with a body string, a stream, or nothing. A null String or stream argument gives the code
  alone. Registering a null handler is not modelled because the code it would carry is unknown.
- Handler behaviour and the exceptions handlers raise, and the byte copy of streams. Handlers and
  streams are opaque tokens, so a stream being consumed by its first request is not modelled.
- AccessKeys.ToUpper: models `String.toUpperCase` on ASCII letters only. Locale-dependent and
  non-ASCII case mappings (some of which change length) are left out.
- ExpectationServlet.ServeAllCounts: stated only while the count stays below `Integer.MAX_VALUE`.
  Past that, `AccessKeys.CountAccess` wraps exactly as `Integer::sum` does.
- Concurrent access to the unsynchronised `HashMap`s. Requests are a sequential trace.
- Logging, and the randomness of `java.util.Random`. The draws are an input function.
- `getPort` unboxing a null port (a `NullPointerException`). The port is an `Option`.
- The plain field getters (`getAccessesByPath`, `getRegisteredErrors`, `getBaseResource`) are the
  datatype fields. The no-argument servlet constructor is `Init(None)`.
- Aliasing through the getters. `getAccessesByPath` and `getRegisteredErrors` hand out the live
  `HashMap`s (`ExpectationServlet.java:79-87`, `ExpectationServer.java:192-200`,
  `TestHttpServer.java:142-150` and `310-318`). A caller can mutate them, and the server sees the
  change. The model returns immutable values. So the frame facts (`ExpectationServer.ExpectationsOnly`,
  `ExpectationServer.ErrorsOnly`, `ExpectationServlet.ServeAll`, `ExpectationServlet.ServeAllCounts`)
  hold only for callers that do not mutate the returned maps.
- The `CommonMethod` overload of `getAccessKey`. `CommonMethod` is not part of this model; the
  overload passes `method.name()` to the String form.
- The legacy `before` and `after`. `before` calls `PortFinder.findOpenPort`, which is commented
  out in `PortFinder`. `after` has the same shape as `stop`.
- The legacy `path.substring(1)` (`TestHttpServer.java:215-219`) is computed but never used, so
  it has no counterpart.
- The legacy URI oracle has no case where `URI.getPath()` returns null (opaque URIs).
- `StreamServer`, the JUnit 4/5 wrappers and the Quarkus callbacks are delegation and
  reflection glue.

=== FILE: access_keys.dfy ===
/**
 Access keys: the strings under which both dispatchers file registrations and
 count requests, built as the upper-cased HTTP method, one space, then the path.
 Also the two per-key map updates the registry performs: replacing an entry
 (`Map.put`) and counting an access (`merge(key, 1, Integer::sum)`).
 */
module AccessKeys {
  import opened Wrappers
  import opened JavaInt

  predicate IsLower(c: char) { 'a' <= c <= 'z' }

  predicate IsUpper(c: char) { 'A' <= c <= 'Z' }

  /** `Character.toUpperCase` on the ASCII letters. */
  function UpperChar(c: char): (u: char)
    ensures IsLower(c) ==> IsUpper(u) && u as int + 32 == c as int
    ensures !IsLower(c) ==> u == c
  {
    if IsLower(c) then (c as int - 32) as char else c
  }

  /** `String.toUpperCase`, character by character. */
  function ToUpper(s: string): (r: string)
    ensures |r| == |s|
    ensures forall i :: 0 <= i < |s| ==> r[i] == UpperChar(s[i])
  {
    if s == [] then [] else [UpperChar(s[0])] + ToUpper(s[1..])
  }

  /** Two characters that differ at most in ASCII letter case. */
  predicate SameIgnoringCase(a: char, b: char)
  {
    || a == b
    || (IsLower(a) && IsUpper(b) && a as int == b as int + 32)
    || (IsUpper(a) && IsLower(b) && b as int == a as int + 32)
  }

  /** Two strings that differ at most in ASCII letter case. */
  predicate EqualIgnoringCase(a: string, b: string)
  {
    |a| == |b| && forall i :: 0 <= i < |a| ==> SameIgnoringCase(a[i], b[i])
  }

  /** Upper-casing identifies exactly the strings that differ only in letter case. */
  lemma {:induction false} ToUpperIgnoresCase(a: string, b: string)
    ensures EqualIgnoringCase(a, b) <==> ToUpper(a) == ToUpper(b)
  {
    if EqualIgnoringCase(a, b) {
      forall i | 0 <= i < |a|
        ensures ToUpper(a)[i] == ToUpper(b)[i]
      {
        assert SameIgnoringCase(a[i], b[i]);
      }
    }
    if ToUpper(a) == ToUpper(b) {
      forall i | 0 <= i < |a|
        ensures SameIgnoringCase(a[i], b[i])
      {
        assert UpperChar(a[i]) == ToUpper(a)[i] == ToUpper(b)[i] == UpperChar(b[i]);
      }
    }
  }

  /** A method that is already upper case appears verbatim in its access key. */
  lemma {:induction false} ToUpperOfUpper(s: string)
    requires forall i :: 0 <= i < |s| ==> !IsLower(s[i])
    ensures ToUpper(s) == s
  {
  }

  /** Upper-casing never introduces a space. */
  lemma ToUpperSpaceFree(s: string)
    ensures ' ' !in s ==> ' ' !in ToUpper(s)
  {
    if ' ' !in s {
      var u := ToUpper(s);
      assert ' ' !in u by {
        forall i | 0 <= i < |u| ensures u[i] != ' ' {
          assert s[i] != ' ';
        }
      }
    }
  }

  /** `getAccessKey(method, path)`: `method.toUpperCase() + " " + path`. */
  function AccessKey(httpMethod: string, path: string): string
  {
    ToUpper(httpMethod) + " " + path
  }

  /** Index of the first space in `s`, or `|s|` when there is none. */
  function FirstSpace(s: string): (i: nat)
    ensures i <= |s|
    ensures i < |s| ==> s[i] == ' '
    ensures forall j :: 0 <= j < i ==> s[j] != ' '
  {
    if s == [] || s[0] == ' ' then 0 else 1 + FirstSpace(s[1..])
  }

  /** Splits an access key back into its method and path at the first space. */
  function SplitKey(key: string): (r: Option<(string, string)>)
    ensures r.None? <==> ' ' !in key
    ensures r.Some? ==> ' ' !in r.value.0 && key == r.value.0 + " " + r.value.1
  {
    var i := FirstSpace(key);
    if i == |key| then None else Some((key[..i], key[i + 1..]))
  }

  /** Joining a space-free `m` and `path` with a space and splitting again gives both back. */
  lemma SplitJoined(m: string, path: string)
    ensures ' ' !in m ==> SplitKey(m + " " + path) == Some((m, path))
  {
    if ' ' !in m {
      var k := m + " " + path;
      var i := FirstSpace(k);
      assert k[|m|] == ' ';
      assert forall j :: 0 <= j < |m| ==> k[j] == m[j];
      assert k[..i] == m;
      assert k[i + 1..] == path;
    }
  }

  /** An access key built from a method without a space splits back into the upper-cased method and the path. */
  lemma SplitAccessKey(httpMethod: string, path: string)
    ensures ' ' !in httpMethod ==> SplitKey(AccessKey(httpMethod, path)) == Some((ToUpper(httpMethod), path))
  {
    ToUpperSpaceFree(httpMethod);
    SplitJoined(ToUpper(httpMethod), path);
  }

  /**
   Two access keys built from space-free methods coincide exactly when the
   methods differ only in letter case and the paths are equal.
   */
  lemma AccessKeyInjective(m1: string, p1: string, m2: string, p2: string)
    requires ' ' !in m1 && ' ' !in m2
    ensures AccessKey(m1, p1) == AccessKey(m2, p2) <==> EqualIgnoringCase(m1, m2) && p1 == p2
  {
    SplitAccessKey(m1, p1);
    SplitAccessKey(m2, p2);
    ToUpperIgnoresCase(m1, m2);
  }

  /** With the same method, two access keys coincide exactly when the paths do. */
  lemma AccessKeySameMethod(m: string, p1: string, p2: string)
    ensures AccessKey(m, p1) == AccessKey(m, p2) <==> p1 == p2
  {
    var u := ToUpper(m) + " ";
    if AccessKey(m, p1) == AccessKey(m, p2) {
      assert p1 == AccessKey(m, p1)[|u|..];
      assert p2 == AccessKey(m, p2)[|u|..];
    }
  }

  /** Methods that differ only in letter case file under the same key, whatever the path. */
  lemma AccessKeyCaseInsensitive(m1: string, m2: string, p: string)
    requires EqualIgnoringCase(m1, m2)
    ensures AccessKey(m1, p) == AccessKey(m2, p)
  {
    ToUpperIgnoresCase(m1, m2);
  }

  /** `after` is `before` with `key` (re)bound to `v`, every other entry unchanged. */
  ghost predicate Stored<V>(after: map<string, V>, before: map<string, V>, key: string, v: V)
  {
    && after.Keys == before.Keys + {key}
    && key in after && after[key] == v
    && forall k :: k in before && k != key ==> after[k] == before[k]
  }

  /** `after` is `before` with the distinct keys `k1` and `k2` (re)bound to `v1` and `v2`, every other entry unchanged. */
  ghost predicate StoredPair<V>(after: map<string, V>, before: map<string, V>, k1: string, v1: V, k2: string, v2: V)
  {
    && k1 != k2
    && after.Keys == before.Keys + {k1, k2}
    && k1 in after && after[k1] == v1
    && k2 in after && after[k2] == v2
    && forall k :: k in before && k != k1 && k != k2 ==> after[k] == before[k]
  }

  /** GET and HEAD never share an access key. */
  lemma GetHeadKeysDistinct(path: string)
    ensures AccessKey("GET", path) != AccessKey("HEAD", path)
  {
    ToUpperOfUpper("GET");
    ToUpperOfUpper("HEAD");
    assert AccessKey("GET", path)[0] != AccessKey("HEAD", path)[0];
  }

  /** `map.put(key, v)`. */
  function Put<V>(m: map<string, V>, key: string, v: V): (r: map<string, V>)
    ensures Stored(r, m, key, v)
  {
    m[key := v]
  }

  /** `after` is `before` with the count at `key` started at 1 or incremented (as a Java int), every other count unchanged. */
  ghost predicate Counted(after: map<string, Int32>, before: map<string, Int32>, key: string)
  {
    && after.Keys == before.Keys + {key}
    && key in after
    && after[key] == (if key in before then Add(before[key], 1) else 1)
    && forall k :: k in before && k != key ==> after[k] == before[k]
  }

  /** `accesses.merge(key, 1, Integer::sum)`. */
  function CountAccess(accesses: map<string, Int32>, key: string): (r: map<string, Int32>)
    ensures Counted(r, accesses, key)
  {
    accesses[key := if key in accesses then Add(accesses[key], 1) else 1]
  }

  /** The count at `key`, an absent count reading as 0. */
  function CountOf(accesses: map<string, Int32>, key: string): int
  {
    if key in accesses then accesses[key] else 0
  }

  /** Below the int limit, counting adds exactly one at the counted key and nothing elsewhere. */
  lemma CountAccessAddsOne(accesses: map<string, Int32>, key: string, other: string)
    requires CountOf(accesses, key) < INT_MAX
    ensures CountOf(CountAccess(accesses, key), other) == CountOf(accesses, other) + (if other == key then 1 else 0)
  {
  }
}

=== FILE: expectation_server.dfy ===
/**
 The `ExpectationServer` façade: the optional fixed port, the port decision
 taken by `start` (one attempt on a fixed port, then a random search), the
 registration overloads that expand to several servlet registrations, the
 delegating accessors, and `stop`.
 Binding a listener is an oracle `bind(attempt, port)`: every attempt builds
 and starts a fresh server, so the same port may fail once and bind later.
 */
module ExpectationServer {
  import opened Wrappers
  import opened JavaInt
  import opened AccessKeys
  import opened Http
  import PortFinder
  import S = ExpectationServlet

  /** A built and started Undertow server. */
  datatype Listener = Listener(id: nat)

  /**
   One attempt to deploy and start a listener on a port: success, a
   `ServletException` from starting the deployment, or an unchecked
   exception from building or starting the listener.
   */
  datatype BindResult = Bound(listener: Listener) | ServletFailure | RuntimeFailure(error: PortFinder.RuntimeError)

  /** Which call of `start` binds: the one try on the fixed port, or the j-th attempt of the random search. */
  datatype AttemptNo = FixedAttempt | RandomAttempt(j: nat)

  /** The attempts one `start` can make: the fixed-port try and the 16 random ones. */
  predicate WithinBudget(a: AttemptNo)
  {
    a.RandomAttempt? ==> a.j < START_TRIES
  }

  /** Why `start` throws: the random search gave up (`IllegalStateException`) or an attempt threw unchecked. */
  datatype StartFailure = NoPortFound | Raised(error: PortFinder.RuntimeError)

  /** `port` is the Integer field (null until set); `listener` the `server` field. */
  datatype Server = Server(port: Option<Int32>, servlet: S.Servlet, listener: Option<Listener>)

  /** Ports below this are ignored by the constructor and by `start`. */
  const MIN_FIXED_PORT: Int32 := 80

  /** The attempt budget `start` gives the random search. */
  const START_TRIES: Int32 := 16

  /** The code the error overloads without one register. */
  const DEFAULT_ERROR_CODE: Int32 := 500

  /**
   The constructors: `(baseResource, port)` keeps the port only when it is at
   least 80; the constructors without a port leave it unset.
   */
  function New(base: Option<string>, port: Option<Int32>): (s: Server)
    ensures s.port.Some? <==> port.Some? && port.value >= MIN_FIXED_PORT
    ensures s.port.Some? ==> s.port == port
    ensures s.listener.None?
    ensures s.servlet == S.Init(base)
  {
    var kept := if port.Some? && port.value >= MIN_FIXED_PORT then port else None;
    Server(kept, S.Init(base), None)
  }

  /** Whether `start` tries the configured port first. */
  predicate HasFixedPort(s: Server)
  {
    s.port.Some? && s.port.value >= MIN_FIXED_PORT
  }

  /** The consumer `start` hands to `findPortFor`: a `ServletException` is rethrown as `IOException`. */
  function Consumer(b: BindResult): (a: PortFinder.Attempt<Listener>)
    ensures a.Returned? <==> b.Bound?
    ensures a.Returned? ==> a.value == b.listener
    ensures a.ThrowsIO? <==> b.ServletFailure?
    ensures a.Throws? <==> b.RuntimeFailure?
    ensures a.Throws? ==> a.error == b.error
  {
    match b
    case Bound(l) => PortFinder.Returned(l)
    case ServletFailure => PortFinder.ThrowsIO
    case RuntimeFailure(e) => PortFinder.Throws(e)
  }

  /**
   The random branch of `start()`: `findPortFor(16, …)` with the port each
   attempt was handed recorded as the server's port.
   */
  function StartRandom(s: Server, bind: (AttemptNo, Int32) -> BindResult, draw: nat -> Int32): (r: Result<Server, StartFailure>)
    ensures r.Success? ==>
              && r.value.servlet == s.servlet
              && r.value.port.Some? && r.value.listener.Some?
              && exists j :: 0 <= j < START_TRIES && r.value.port.value == PortFinder.CandidatePort(draw(j))
                                                  && bind(RandomAttempt(j), r.value.port.value) == Bound(r.value.listener.value)
    ensures r == Failure(NoPortFound) ==>
              forall j :: 0 <= j < START_TRIES ==> bind(RandomAttempt(j), PortFinder.CandidatePort(draw(j))).ServletFailure?
    ensures r.Failure? && r.error.Raised? ==>
              exists j :: 0 <= j < START_TRIES && bind(RandomAttempt(j), PortFinder.CandidatePort(draw(j))) == RuntimeFailure(r.error.error)
  {
    var search := StartSearch(bind, draw);
    match search.outcome
    case Found(l) =>
      SearchFoundByBinding(bind, draw);
      Success(Server(Some(search.tried[|search.tried| - 1]), s.servlet, Some(l)))
    case Exhausted =>
      SearchExhaustedByBinding(bind, draw);
      Failure(NoPortFound)
    case Propagated(e) =>
      SearchPropagatedByBinding(bind, draw);
      Failure(Raised(e))
  }

  /** The consumer `start` hands to `findPortFor`: its j-th call is the random search's j-th binding attempt. */
  function StartConsumer(bind: (AttemptNo, Int32) -> BindResult): (consumer: (nat, Int32) -> PortFinder.Attempt<Listener>)
  {
    (j: nat, p: Int32) => Consumer(bind(RandomAttempt(j), p))
  }

  /** The random search of `start`. */
  function StartSearch(bind: (AttemptNo, Int32) -> BindResult, draw: nat -> Int32): PortFinder.Search<Listener>
  {
    PortFinder.FindPortFor(START_TRIES, draw, StartConsumer(bind))
  }

  /** A search that found a listener found it by binding the last port it tried, after `ServletException`s on the earlier ones. */
  lemma SearchFoundByBinding(bind: (AttemptNo, Int32) -> BindResult, draw: nat -> Int32)
    ensures var search := StartSearch(bind, draw);
            search.outcome.Found? ==>
              && 0 < |search.tried| <= START_TRIES
              && search.tried[|search.tried| - 1] == PortFinder.CandidatePort(draw(|search.tried| - 1))
              && bind(RandomAttempt(|search.tried| - 1), search.tried[|search.tried| - 1]) == Bound(search.outcome.value)
              && forall j :: 0 <= j < |search.tried| - 1 ==> bind(RandomAttempt(j), PortFinder.CandidatePort(draw(j))).ServletFailure?
  {
    var consumer := StartConsumer(bind);
    PortFinder.FoundAfterIOFailures(START_TRIES, draw, consumer);
    var search := StartSearch(bind, draw);
    if search.outcome.Found? {
      var last := |search.tried| - 1;
      assert consumer(last, search.tried[last]) == Consumer(bind(RandomAttempt(last), search.tried[last]));
      forall j | 0 <= j < last
        ensures bind(RandomAttempt(j), PortFinder.CandidatePort(draw(j))).ServletFailure?
      {
        var port := PortFinder.CandidatePort(draw(j));
        assert consumer(j, port) == Consumer(bind(RandomAttempt(j), port));
      }
    }
  }

  /** An exhausted search met a `ServletException` on every one of its 16 candidates. */
  lemma SearchExhaustedByBinding(bind: (AttemptNo, Int32) -> BindResult, draw: nat -> Int32)
    ensures StartSearch(bind, draw).outcome.Exhausted? ==>
              forall j :: 0 <= j < START_TRIES ==> bind(RandomAttempt(j), PortFinder.CandidatePort(draw(j))).ServletFailure?
  {
    var consumer := StartConsumer(bind);
    PortFinder.ExhaustedMeansAllIOFailures(START_TRIES, draw, consumer);
    if StartSearch(bind, draw).outcome.Exhausted? {
      forall j | 0 <= j < START_TRIES
        ensures bind(RandomAttempt(j), PortFinder.CandidatePort(draw(j))).ServletFailure?
      {
        var port := PortFinder.CandidatePort(draw(j));
        assert consumer(j, port) == Consumer(bind(RandomAttempt(j), port));
      }
    }
  }

  /** A search ended by an unchecked exception met it binding the last port it tried. */
  lemma SearchPropagatedByBinding(bind: (AttemptNo, Int32) -> BindResult, draw: nat -> Int32)
    ensures var search := StartSearch(bind, draw);
            search.outcome.Propagated? ==>
              && 0 < |search.tried| <= START_TRIES
              && bind(RandomAttempt(|search.tried| - 1), PortFinder.CandidatePort(draw(|search.tried| - 1))) == RuntimeFailure(search.outcome.error)
  {
    var search := StartSearch(bind, draw);
    if search.outcome.Propagated? {
      var last := |search.tried| - 1;
      assert search.tried[last] == PortFinder.CandidatePort(draw(last));
      assert StartConsumer(bind)(last, search.tried[last]) == Consumer(bind(RandomAttempt(last), search.tried[last]));
    }
  }

  /**
   `start()`: a fixed port is tried once; if there is none, or that attempt
   throws anything at all, the port comes from `findPortFor(16, …)`. On
   success the port recorded is the one some attempt bound the listener on.
   */
  function Start(s: Server, bind: (AttemptNo, Int32) -> BindResult, draw: nat -> Int32): (r: Result<Server, StartFailure>)
    ensures r.Success? ==>
              && r.value.servlet == s.servlet
              && r.value.port.Some? && r.value.listener.Some?
              && exists a :: WithinBudget(a) && bind(a, r.value.port.value) == Bound(r.value.listener.value)
    ensures HasFixedPort(s) && bind(FixedAttempt, s.port.value).Bound? ==>
              r == Success(s.(listener := Some(bind(FixedAttempt, s.port.value).listener)))
    ensures !(HasFixedPort(s) && bind(FixedAttempt, s.port.value).Bound?) ==> r == StartRandom(s, bind, draw)
  {
    if HasFixedPort(s) && bind(FixedAttempt, s.port.value).Bound? then
      Success(s.(listener := Some(bind(FixedAttempt, s.port.value).listener)))
    else
      StartRandom(s, bind, draw)
  }

  /** Without a fixed port, `start` is exactly the random search: the first candidate that binds becomes the port. */
  lemma StartWithoutFixedPort(s: Server, bind: (AttemptNo, Int32) -> BindResult, draw: nat -> Int32, k: nat)
    requires !HasFixedPort(s)
    requires k < START_TRIES
    requires forall j :: 0 <= j < k ==> bind(RandomAttempt(j), PortFinder.CandidatePort(draw(j))).ServletFailure?
    requires bind(RandomAttempt(k), PortFinder.CandidatePort(draw(k))).Bound?
    ensures Start(s, bind, draw) ==
              Success(Server(Some(PortFinder.CandidatePort(draw(k))), s.servlet,
                             Some(bind(RandomAttempt(k), PortFinder.CandidatePort(draw(k))).listener)))
  {
    PortFinder.FirstNonIOAttemptDecides(START_TRIES, draw, StartConsumer(bind), k);
  }

  /** A fixed port whose attempt fails in any way is abandoned for the random search. */
  lemma FailedFixedPortFallsBack(s: Server, bind: (AttemptNo, Int32) -> BindResult, draw: nat -> Int32)
    requires HasFixedPort(s) && !bind(FixedAttempt, s.port.value).Bound?
    requires bind(RandomAttempt(0), PortFinder.CandidatePort(draw(0))).Bound?
    ensures Start(s, bind, draw) ==
              Success(Server(Some(PortFinder.CandidatePort(draw(0))), s.servlet,
                             Some(bind(RandomAttempt(0), PortFinder.CandidatePort(draw(0))).listener)))
  {
    PortFinder.FirstNonIOAttemptDecides(START_TRIES, draw, StartConsumer(bind), 0);
  }

  /** `stop()`: the listener `stop()` is sent to; none when the server was never started. */
  function Stop(s: Server): (stopped: Option<Listener>)
    ensures stopped.Some? <==> s.listener.Some?
  {
    s.listener
  }

  /** A server that was only constructed stops without doing anything; a started one stops the listener it bound. */
  lemma StopAfterNewOrStart(base: Option<string>, port: Option<Int32>, bind: (AttemptNo, Int32) -> BindResult, draw: nat -> Int32)
    ensures Stop(New(base, port)).None?
    ensures var r := Start(New(base, port), bind, draw);
            r.Success? ==> Stop(r.value).Some? &&
                           exists a :: WithinBudget(a) && bind(a, r.value.port.value) == Bound(Stop(r.value).value)
  {
  }

  /** Only the servlet's expectation map may differ: port, listener, errors, counts and base resource are kept. */
  ghost predicate ExpectationsOnly(r: Server, s: Server)
  {
    && r.port == s.port && r.listener == s.listener
    && r.servlet.errors == s.servlet.errors
    && r.servlet.accesses == s.servlet.accesses
    && r.servlet.baseResource == s.servlet.baseResource
  }

  /** Only the servlet's error map may differ: port, listener, expectations, counts and base resource are kept. */
  ghost predicate ErrorsOnly(r: Server, s: Server)
  {
    && r.port == s.port && r.listener == s.listener
    && r.servlet.expectations == s.servlet.expectations
    && r.servlet.accesses == s.servlet.accesses
    && r.servlet.baseResource == s.servlet.baseResource
  }

  /** `expect(testUrl, code, String body)`: GET with the body, HEAD with the same code and no body, nothing else touched. */
  function ExpectGetHead(s: Server, url: S.UrlFile, testUrl: string, code: Int32, body: Option<string>): (r: Server)
    ensures var path := S.GetPath(url, testUrl);
            StoredPair(r.servlet.expectations, s.servlet.expectations,
                       AccessKey("GET", path), S.ContentResponse("GET", path, S.Fixed(TextContent(code, body))),
                       AccessKey("HEAD", path), S.ContentResponse("HEAD", path, S.Fixed(StatusOnly(code))))
    ensures ExpectationsOnly(r, s)
  {
    GetHeadKeysDistinct(S.GetPath(url, testUrl));
    s.(servlet := S.Expect(S.Expect(s.servlet, url, "GET", testUrl, code, body), url, "HEAD", testUrl, code, None))
  }

  /** `expect(testUrl, code, InputStream)`: GET with the stream, HEAD with the same code and no body, nothing else touched. */
  function ExpectStreamGetHead(s: Server, url: S.UrlFile, testUrl: string, code: Int32, stream: Option<StreamToken>): (r: Server)
    ensures var path := S.GetPath(url, testUrl);
            StoredPair(r.servlet.expectations, s.servlet.expectations,
                       AccessKey("GET", path), S.ContentResponse("GET", path, S.Fixed(StreamContent(code, stream))),
                       AccessKey("HEAD", path), S.ContentResponse("HEAD", path, S.Fixed(StatusOnly(code))))
    ensures ExpectationsOnly(r, s)
  {
    GetHeadKeysDistinct(S.GetPath(url, testUrl));
    s.(servlet := S.Expect(S.ExpectStream(s.servlet, url, "GET", testUrl, code, stream), url, "HEAD", testUrl, code, None))
  }

  /** `expect(method, testUrl, code, String body)`: one entry, for that method only. */
  function ExpectFor(s: Server, url: S.UrlFile, httpMethod: string, testUrl: string, code: Int32, body: Option<string>): (r: Server)
    ensures var path := S.GetPath(url, testUrl);
            Stored(r.servlet.expectations, s.servlet.expectations, AccessKey(httpMethod, path),
                   S.ContentResponse(httpMethod, path, S.Fixed(TextContent(code, body))))
    ensures ExpectationsOnly(r, s)
  {
    s.(servlet := S.Expect(s.servlet, url, httpMethod, testUrl, code, body))
  }

  /** `expect(method, testUrl, code, InputStream)`: one entry, for that method only. */
  function ExpectStreamFor(s: Server, url: S.UrlFile, httpMethod: string, testUrl: string, code: Int32, stream: Option<StreamToken>): (r: Server)
    ensures var path := S.GetPath(url, testUrl);
            Stored(r.servlet.expectations, s.servlet.expectations, AccessKey(httpMethod, path),
                   S.ContentResponse(httpMethod, path, S.Fixed(StreamContent(code, stream))))
    ensures ExpectationsOnly(r, s)
  {
    s.(servlet := S.ExpectStream(s.servlet, url, httpMethod, testUrl, code, stream))
  }

  /** `expect(method, testUrl, handler)`: one entry, for that method only. */
  function ExpectHandlerFor(s: Server, url: S.UrlFile, httpMethod: string, testUrl: string, handler: HandlerToken): (r: Server)
    ensures var path := S.GetPath(url, testUrl);
            Stored(r.servlet.expectations, s.servlet.expectations, AccessKey(httpMethod, path),
                   S.ContentResponse(httpMethod, path, S.ByHandler(handler)))
    ensures ExpectationsOnly(r, s)
  {
    s.(servlet := S.ExpectHandler(s.servlet, url, httpMethod, testUrl, handler))
  }

  /** `registerException(url, error, code)`: the same error for HEAD and for GET, nothing else touched. */
  function RegisterExceptionHeadGet(s: Server, url: S.UrlFile, testUrl: string, error: Option<string>, code: Int32): (r: Server)
    ensures var path := S.GetPath(url, testUrl);
            StoredPair(r.servlet.errors, s.servlet.errors,
                       AccessKey("GET", path), S.ContentResponse("GET", path, S.Fixed(TextContent(code, error))),
                       AccessKey("HEAD", path), S.ContentResponse("HEAD", path, S.Fixed(TextContent(code, error))))
    ensures ErrorsOnly(r, s)
  {
    GetHeadKeysDistinct(S.GetPath(url, testUrl));
    s.(servlet := S.RegisterException(S.RegisterException(s.servlet, url, "HEAD", testUrl, code, error), url, "GET", testUrl, code, error))
  }

  /** `registerException(url, error)`: HEAD and GET with code 500. */
  function RegisterExceptionDefault(s: Server, url: S.UrlFile, testUrl: string, error: Option<string>): (r: Server)
    ensures r == RegisterExceptionHeadGet(s, url, testUrl, error, DEFAULT_ERROR_CODE)
  {
    RegisterExceptionHeadGet(s, url, testUrl, error, 500)
  }

  /** `registerException(method, url, code, error)`: one error entry, for that method only. */
  function RegisterExceptionFor(s: Server, url: S.UrlFile, httpMethod: string, testUrl: string, code: Int32, error: Option<string>): (r: Server)
    ensures var path := S.GetPath(url, testUrl);
            Stored(r.servlet.errors, s.servlet.errors, AccessKey(httpMethod, path),
                   S.ContentResponse(httpMethod, path, S.Fixed(TextContent(code, error))))
    ensures ErrorsOnly(r, s)
  {
    s.(servlet := S.RegisterException(s.servlet, url, httpMethod, testUrl, code, error))
  }

  /** `registerException(method, url, error)`: that method only, code 500. */
  function RegisterExceptionForDefault(s: Server, url: S.UrlFile, httpMethod: string, testUrl: string, error: Option<string>): (r: Server)
    ensures r == RegisterExceptionFor(s, url, httpMethod, testUrl, DEFAULT_ERROR_CODE, error)
  {
    s.(servlet := S.RegisterException(s.servlet, url, httpMethod, testUrl, 500, error))
  }

  /** Both error overloads without a method make HEAD and GET answer with the same error, whatever was expected there. */
  lemma RegisterExceptionCoversHeadAndGet(s: Server, url: S.UrlFile, testUrl: string, error: Option<string>, code: Int32, req: Request)
    requires req.httpMethod == "GET" || req.httpMethod == "HEAD"
    requires S.WholePath(req) == S.GetPath(url, testUrl)
    ensures S.Service(RegisterExceptionHeadGet(s, url, testUrl, error, code).servlet, req).reply
         == S.RenderError(S.Fixed(TextContent(code, error)))
  {
    GetHeadKeysDistinct(S.GetPath(url, testUrl));
  }

  /** `getAccessKey(method, path)`: delegated to the servlet; the key splits back into the upper-cased method and the path. */
  function GetAccessKey(s: Server, httpMethod: string, path: string): (k: string)
    ensures ' ' !in httpMethod ==> AccessKeys.SplitKey(k) == Some((ToUpper(httpMethod), path))
  {
    SplitAccessKey(httpMethod, path);
    AccessKey(httpMethod, path)
  }

  /** `getAccessesFor(path)`: the GET count, delegated to the servlet. */
  function GetAccessesFor(s: Server, path: string): (r: Option<Int32>)
    ensures r == Get(s.servlet.accesses, AccessKey("GET", path))
  {
    S.GetAccessesForGet(s.servlet, path)
  }

  /** `getAccessesFor(method, path)`, delegated to the servlet. */
  function GetAccessesForMethod(s: Server, httpMethod: string, path: string): (r: Option<Int32>)
    ensures r == Get(s.servlet.accesses, AccessKey(httpMethod, path))
  {
    S.GetAccessesFor(s.servlet, httpMethod, path)
  }

  /** The GET count reads 1 after the first GET of a path without query, and one more after each later one. */
  lemma AccessesAfterGet(s: Server, path: string)
    requires CountOf(s.servlet.accesses, AccessKey("GET", path)) < INT_MAX
    ensures var after := s.(servlet := S.Service(s.servlet, Request("GET", path, None)).servlet);
            GetAccessesFor(after, path) == Some(CountOf(s.servlet.accesses, AccessKey("GET", path)) + 1)
  {
    var req := Request("GET", path, None);
    assert S.WholeKey(req) == AccessKey("GET", path);
    CountAccessAddsOne(s.servlet.accesses, AccessKey("GET", path), AccessKey("GET", path));
  }

  /** The registry after GET/HEAD expectations for two query variants of one path on a fresh server. */
  lemma TwoQueryVariantsRegistered(
    base: Option<string>, port: Option<Int32>, url: S.UrlFile, u1: string, u2: string,
    path: string, q1: string, q2: string, c1: Int32, b1: string, c2: Int32, b2: string)
    requires url(u1) == Some(path + "?" + q1) && url(u2) == Some(path + "?" + q2)
    requires q1 != q2
    ensures var s := ExpectGetHead(ExpectGetHead(New(base, port), url, u1, c1, Some(b1)), url, u2, c2, Some(b2)).servlet;
            var g1, h1 := AccessKey("GET", path + "?" + q1), AccessKey("HEAD", path + "?" + q1);
            var g2, h2 := AccessKey("GET", path + "?" + q2), AccessKey("HEAD", path + "?" + q2);
            && s.errors == map[]
            && s.expectations.Keys == {g1, h1, g2, h2}
            && |s.expectations| == 4
            && s.expectations[g1].payload == S.Fixed(Text(c1, b1))
            && s.expectations[g2].payload == S.Fixed(Text(c2, b2))
  {
    var p1 := path + "?" + q1;
    var p2 := path + "?" + q2;
    assert p1 != p2 by {
      assert p1[|path| + 1..] == q1;
      assert p2[|path| + 1..] == q2;
    }
    ToUpperOfUpper("GET");
    ToUpperOfUpper("HEAD");
    var g1, h1 := AccessKey("GET", p1), AccessKey("HEAD", p1);
    var g2, h2 := AccessKey("GET", p2), AccessKey("HEAD", p2);
    AccessKeySameMethod("GET", p1, p2);
    AccessKeySameMethod("HEAD", p1, p2);
    GetHeadKeysDistinct(p1);
    GetHeadKeysDistinct(p2);
    assert g1 != h2 by { assert g1[0] != h2[0]; }
    assert g2 != h1 by { assert g2[0] != h1[0]; }
    var r := ExpectGetHead(ExpectGetHead(New(base, port), url, u1, c1, Some(b1)), url, u2, c2, Some(b2)).servlet;
    FourKeys(r.expectations, g1, h1, g2, h2);
  }

  /** A map whose keys are four pairwise distinct strings has four entries. */
  lemma FourKeys<V>(m: map<string, V>, a: string, b: string, c: string, d: string)
    requires m.Keys == {a, b, c, d}
    requires a != b && a != c && a != d && b != c && b != d && c != d
    ensures |m| == 4
  {
    assert m.Keys == {a} + {b} + {c} + {d};
    assert |m.Keys| == |m|;
  }

  /** A GET with query `q` is answered from the text expectation registered at the path with that query. */
  lemma ServedQueryVariant(s: S.Servlet, path: string, q: string, code: Int32, body: string)
    requires AccessKey("GET", path + "?" + q) !in s.errors
    requires AccessKey("GET", path + "?" + q) in s.expectations
    requires s.expectations[AccessKey("GET", path + "?" + q)].payload == S.Fixed(Text(code, body))
    ensures S.Service(s, Request("GET", path, Some(q))).reply == SetStatus(code, WriteText(body))
  {
    assert S.WholeKey(Request("GET", path, Some(q))) == AccessKey("GET", path + "?" + q);
  }

  /** With only the GET and HEAD entries of two query variants registered, the path without a query is not found. */
  lemma BarePathNotFound(s: S.Servlet, path: string, q1: string, q2: string)
    requires s.errors == map[]
    requires s.expectations.Keys == {AccessKey("GET", path + "?" + q1), AccessKey("HEAD", path + "?" + q1),
                                     AccessKey("GET", path + "?" + q2), AccessKey("HEAD", path + "?" + q2)}
    ensures S.Service(s, Request("GET", path, None)).reply == NotFound
  {
    var bare := AccessKey("GET", path);
    var g1, h1 := AccessKey("GET", path + "?" + q1), AccessKey("HEAD", path + "?" + q1);
    var g2, h2 := AccessKey("GET", path + "?" + q2), AccessKey("HEAD", path + "?" + q2);
    assert bare != g1 && bare != g2 && bare != h1 && bare != h2 by {
      assert |bare| < |g1| && |bare| < |g2| && |bare| < |h1| && |bare| < |h2|;
    }
    assert S.WholeKey(Request("GET", path, None)) == bare;
    assert !S.Registered(s, bare);
  }

  /**
   Registrations for the same path with two different queries are separate
   entries: each request with its own query gets its own body, and on a fresh
   server the path without a query is not found.
   */
  lemma QueryVariantsIndependent(
    base: Option<string>, port: Option<Int32>, url: S.UrlFile, u1: string, u2: string,
    path: string, q1: string, q2: string, c1: Int32, b1: string, c2: Int32, b2: string)
    requires url(u1) == Some(path + "?" + q1) && url(u2) == Some(path + "?" + q2)
    requires q1 != q2
    ensures var s := ExpectGetHead(ExpectGetHead(New(base, port), url, u1, c1, Some(b1)), url, u2, c2, Some(b2)).servlet;
            && S.Service(s, Request("GET", path, Some(q1))).reply == SetStatus(c1, WriteText(b1))
            && S.Service(s, Request("GET", path, Some(q2))).reply == SetStatus(c2, WriteText(b2))
            && S.Service(s, Request("GET", path, None)).reply == NotFound
  {
    TwoQueryVariantsRegistered(base, port, url, u1, u2, path, q1, q2, c1, b1, c2, b2);
    var s := ExpectGetHead(ExpectGetHead(New(base, port), url, u1, c1, Some(b1)), url, u2, c2, Some(b2)).servlet;
    ServedQueryVariant(s, path, q1, c1, b1);
    ServedQueryVariant(s, path, q2, c2, b2);
    BarePathNotFound(s, path, q1, q2);
  }
}

=== FILE: expectation_servlet.dfy ===
/**
 The expectation registry and request dispatcher of the `core` module
 (`org.commonjava.test.http.expect.ExpectationServlet`): three maps keyed by
 access key, registration that reduces a URL to its file part, and a
 dispatcher that counts every request under its whole path (query included)
 and then looks the request up first under the whole path and then, when a
 query was present, under the bare URI.
 */
module ExpectationServlet {
  import opened Wrappers
  import opened JavaInt
  import opened AccessKeys
  import opened Http

  /** `new URL(s).getFile()`; None when the constructor throws `MalformedURLException`. */
  type UrlFile = string -> Option<string>

  /** What a registration answers with: a handler, or fixed content. */
  datatype Payload = ByHandler(handler: HandlerToken) | Fixed(content: Content)

  /** A registration: the method and normalised path it was made for, and what it answers. */
  datatype ContentResponse = ContentResponse(httpMethod: string, path: string, payload: Payload)

  datatype Servlet = Servlet(
    baseResource: string,
    expectations: map<string, ContentResponse>,
    errors: map<string, ContentResponse>,
    accesses: map<string, Int32>)

  /** The servlet after one request, and what the request was answered with. */
  datatype Served = Served(servlet: Servlet, reply: Reply)

  /** The constructor's base-resource normalisation: null becomes "/", and "/" is prefixed when missing. */
  function BaseResource(base: Option<string>): (r: string)
    ensures 0 < |r| && r[0] == '/'
    ensures base.None? ==> r == "/"
    ensures base.Some? ==> |base.value| <= |r| <= |base.value| + 1 && r[|r| - |base.value|..] == base.value
    ensures base.Some? && 0 < |base.value| && base.value[0] == '/' ==> r == base.value
  {
    match base
    case None => "/"
    case Some(b) => if 0 < |b| && b[0] == '/' then b else "/" + b
  }

  /** Normalising an already normalised base resource changes nothing. */
  lemma BaseResourceIdempotent(base: Option<string>)
    ensures BaseResource(Some(BaseResource(base))) == BaseResource(base)
  {
  }

  /** `new ExpectationServlet(baseResource)`: empty maps. */
  function Init(base: Option<string>): (s: Servlet)
    ensures s.baseResource == BaseResource(base)
    ensures s.expectations == map[] && s.errors == map[] && s.accesses == map[]
  {
    Servlet(BaseResource(base), map[], map[], map[])
  }

  /** `getPath(testUrl)`: the URL's file part (path plus query), or the string itself when it is not a URL. */
  function GetPath(url: UrlFile, testUrl: string): (p: string)
    ensures url(testUrl).Some? ==> p == url(testUrl).value
    ensures url(testUrl).None? ==> p == testUrl
  {
    match url(testUrl)
    case Some(file) => file
    case None => testUrl
  }

  /** The registration `expect`/`registerException` build for `testUrl`. */
  function Registration(url: UrlFile, httpMethod: string, testUrl: string, payload: Payload): ContentResponse
  {
    ContentResponse(httpMethod, GetPath(url, testUrl), payload)
  }

  /** The key a registration for `testUrl` is stored under. */
  function RegistrationKey(url: UrlFile, httpMethod: string, testUrl: string): string
  {
    AccessKey(httpMethod, GetPath(url, testUrl))
  }

  /** `expectations.put(key, …)` for one registration. */
  function PutExpectation(s: Servlet, url: UrlFile, httpMethod: string, testUrl: string, payload: Payload): (r: Servlet)
    ensures Stored(r.expectations, s.expectations, RegistrationKey(url, httpMethod, testUrl),
                   Registration(url, httpMethod, testUrl, payload))
    ensures r.errors == s.errors && r.accesses == s.accesses && r.baseResource == s.baseResource
  {
    s.(expectations := Put(s.expectations, RegistrationKey(url, httpMethod, testUrl),
                           Registration(url, httpMethod, testUrl, payload)))
  }

  /** `expect(method, testUrl, responseCode, String body)`; a null body registers the status alone. */
  function Expect(s: Servlet, url: UrlFile, httpMethod: string, testUrl: string, code: Int32, body: Option<string>): (r: Servlet)
    ensures Stored(r.expectations, s.expectations, RegistrationKey(url, httpMethod, testUrl),
                   ContentResponse(httpMethod, GetPath(url, testUrl), Fixed(TextContent(code, body))))
    ensures r.errors == s.errors && r.accesses == s.accesses && r.baseResource == s.baseResource
  {
    PutExpectation(s, url, httpMethod, testUrl, Fixed(TextContent(code, body)))
  }

  /** `expect(method, testUrl, responseCode, InputStream bodyStream)`; a null stream registers the status alone. */
  function ExpectStream(s: Servlet, url: UrlFile, httpMethod: string, testUrl: string, code: Int32, stream: Option<StreamToken>): (r: Servlet)
    ensures Stored(r.expectations, s.expectations, RegistrationKey(url, httpMethod, testUrl),
                   ContentResponse(httpMethod, GetPath(url, testUrl), Fixed(StreamContent(code, stream))))
    ensures r.errors == s.errors && r.accesses == s.accesses && r.baseResource == s.baseResource
  {
    PutExpectation(s, url, httpMethod, testUrl, Fixed(StreamContent(code, stream)))
  }

  /** `expect(method, testUrl, handler)`. */
  function ExpectHandler(s: Servlet, url: UrlFile, httpMethod: string, testUrl: string, handler: HandlerToken): (r: Servlet)
    ensures Stored(r.expectations, s.expectations, RegistrationKey(url, httpMethod, testUrl),
                   ContentResponse(httpMethod, GetPath(url, testUrl), ByHandler(handler)))
    ensures r.errors == s.errors && r.accesses == s.accesses && r.baseResource == s.baseResource
  {
    PutExpectation(s, url, httpMethod, testUrl, ByHandler(handler))
  }

  /** `registerException(method, path, code, error)`: only the error map changes. */
  function RegisterException(s: Servlet, url: UrlFile, httpMethod: string, path: string, code: Int32, error: Option<string>): (r: Servlet)
    ensures Stored(r.errors, s.errors, RegistrationKey(url, httpMethod, path),
                   ContentResponse(httpMethod, GetPath(url, path), Fixed(TextContent(code, error))))
    ensures r.expectations == s.expectations && r.accesses == s.accesses && r.baseResource == s.baseResource
  {
    s.(errors := Put(s.errors, RegistrationKey(url, httpMethod, path),
                     Registration(url, httpMethod, path, Fixed(TextContent(code, error)))))
  }

  /** `getWholePath(req)`: the request URI, followed by "?" and the query when there is one. */
  function WholePath(req: Request): (p: string)
    ensures req.uri <= p
    ensures p == req.uri <==> req.query.None?
    ensures req.query.Some? ==> p[|req.uri|] == '?' && p[|req.uri| + 1..] == req.query.value
  {
    match req.query
    case None => req.uri
    case Some(q) => req.uri + "?" + q
  }

  /** `getSimplePath(req)`: the request URI alone, a prefix of the whole path and distinct from it exactly when there is a query. */
  function SimplePath(req: Request): (p: string)
    ensures p <= WholePath(req)
    ensures p == WholePath(req) <==> req.query.None?
    ensures req.query.Some? ==> WholePath(req) == p + "?" + req.query.value
  {
    req.uri
  }

  /** The key a request is counted under and looked up under first. */
  function WholeKey(req: Request): string
  {
    AccessKey(req.httpMethod, WholePath(req))
  }

  /** The key of the second lookup tier. */
  function SimpleKey(req: Request): string
  {
    AccessKey(req.httpMethod, SimplePath(req))
  }

  /** Rendering of a registered error: handler, `sendError(code, body)`, stream copy, or `sendError(code)`. */
  function RenderError(p: Payload): (r: Reply)
    ensures r.Delegated? <==> p.ByHandler?
    ensures p.Fixed? ==> StatusOf(r) == Some(p.content.code)
    ensures r.SendError? <==> p.Fixed? && !p.content.Stream?
    ensures r.SendError? ==> (r.message.Some? <==> p.content.Text?)
    ensures r.SendError? && p.content.Text? ==> r.message == Some(p.content.body)
    ensures p.ByHandler? ==> r.handler == p.handler
    ensures p.Fixed? && p.content.Stream? ==> r == SetStatus(p.content.code, CopyStream(p.content.stream))
  {
    match p
    case ByHandler(h) => Delegated(h)
    case Fixed(Text(code, body)) => SendError(code, Some(body))
    case Fixed(Stream(code, st)) => SetStatus(code, CopyStream(st))
    case Fixed(StatusOnly(code)) => SendError(code, None)
  }

  /** Rendering of a registered expectation: handler, or status followed by its body. */
  function RenderExpectation(p: Payload): (r: Reply)
    ensures r.Delegated? <==> p.ByHandler?
    ensures p.ByHandler? ==> r.handler == p.handler
    ensures p.Fixed? && p.content.Text? ==> r == SetStatus(p.content.code, WriteText(p.content.body))
    ensures p.Fixed? && p.content.Stream? ==> r == SetStatus(p.content.code, CopyStream(p.content.stream))
    ensures p.Fixed? && p.content.StatusOnly? ==> r == SetStatus(p.content.code, NoBody)
  {
    match p
    case ByHandler(h) => Delegated(h)
    case Fixed(c) => SetStatus(c.code, BodyOf(c))
  }

  /** Whether anything is registered at `key`. */
  predicate Registered(s: Servlet, key: string)
  {
    key in s.errors || key in s.expectations
  }

  /** `handle(key, req, resp)`: the error at `key` if any, else the expectation, else unhandled. */
  function Handle(s: Servlet, key: string): (r: Option<Reply>)
    ensures r.Some? <==> Registered(s, key)
  {
    if key in s.errors then Some(RenderError(s.errors[key].payload))
    else if key in s.expectations then Some(RenderExpectation(s.expectations[key].payload))
    else None
  }

  /**
   `service(req, resp)`: count the request under its whole path, then answer
   with the whole-path registration, else (when a query made the whole path
   differ from the URI) the bare-URI registration, else 404. At each key a
   registered error takes precedence over an expectation.
   */
  function Service(s: Servlet, req: Request): (r: Served)
    ensures r.servlet.baseResource == s.baseResource
    ensures r.servlet.expectations == s.expectations && r.servlet.errors == s.errors
    ensures Counted(r.servlet.accesses, s.accesses, WholeKey(req))
    ensures WholeKey(req) in s.errors ==>
              r.reply == RenderError(s.errors[WholeKey(req)].payload)
    ensures WholeKey(req) !in s.errors && WholeKey(req) in s.expectations ==>
              r.reply == RenderExpectation(s.expectations[WholeKey(req)].payload)
    ensures !Registered(s, WholeKey(req)) && req.query.Some? && SimpleKey(req) in s.errors ==>
              r.reply == RenderError(s.errors[SimpleKey(req)].payload)
    ensures !Registered(s, WholeKey(req)) && req.query.Some? && SimpleKey(req) !in s.errors
            && SimpleKey(req) in s.expectations ==>
              r.reply == RenderExpectation(s.expectations[SimpleKey(req)].payload)
    ensures !Registered(s, WholeKey(req)) && (req.query.None? || !Registered(s, SimpleKey(req))) ==>
              r.reply == NotFound
  {
    var wholePath := WholePath(req);
    var key := AccessKey(req.httpMethod, wholePath);
    var counted := s.(accesses := CountAccess(s.accesses, key));
    var reply :=
      match Handle(counted, key)
      case Some(handled) => handled
      case None =>
        if SimplePath(req) != wholePath then
          match Handle(counted, AccessKey(req.httpMethod, SimplePath(req)))
          case Some(handled) => handled
          case None => NotFound
        else NotFound;
    Served(counted, reply)
  }

  /** `getAccessesFor(method, path)`: the count at the access key, null when never requested. */
  function GetAccessesFor(s: Servlet, httpMethod: string, path: string): (r: Option<Int32>)
    ensures r.Some? <==> AccessKey(httpMethod, path) in s.accesses
    ensures r.Some? ==> r.value == s.accesses[AccessKey(httpMethod, path)]
  {
    Get(s.accesses, AccessKey(httpMethod, path))
  }

  /** `getAccessesFor(path)`: the count for GET. */
  function GetAccessesForGet(s: Servlet, path: string): (r: Option<Int32>)
    ensures r == GetAccessesFor(s, "GET", path)
  {
    Get(s.accesses, AccessKey("GET", path))
  }

  /** A sequence of requests served one after the other. */
  function ServeAll(s: Servlet, reqs: seq<Request>): (r: Servlet)
    decreases |reqs|
    ensures r.expectations == s.expectations && r.errors == s.errors && r.baseResource == s.baseResource
  {
    if reqs == [] then s else ServeAll(Service(s, reqs[0]).servlet, reqs[1..])
  }

  /** How many of `reqs` are counted under `key`. */
  function Hits(reqs: seq<Request>, key: string): (n: nat)
    ensures n <= |reqs|
  {
    if reqs == [] then 0 else (if WholeKey(reqs[0]) == key then 1 else 0) + Hits(reqs[1..], key)
  }

  /** A trace has no hits at `key` exactly when none of its requests is counted under `key`. */
  lemma {:induction false} NoHits(reqs: seq<Request>, key: string)
    decreases |reqs|
    ensures Hits(reqs, key) == 0 <==> forall i :: 0 <= i < |reqs| ==> WholeKey(reqs[i]) != key
  {
    if reqs != [] {
      var rest := reqs[1..];
      NoHits(rest, key);
      assert (forall i :: 0 <= i < |reqs| ==> WholeKey(reqs[i]) != key)
         <==> WholeKey(reqs[0]) != key && forall i :: 0 <= i < |rest| ==> WholeKey(rest[i]) != key by {
        assert forall i :: 0 <= i < |rest| ==> rest[i] == reqs[1..][i];
      }
    }
  }

  /** Every request of a trace is a hit at `key` exactly when all of them are counted under `key`. */
  lemma {:induction false} AllHits(reqs: seq<Request>, key: string)
    decreases |reqs|
    ensures Hits(reqs, key) == |reqs| <==> forall i :: 0 <= i < |reqs| ==> WholeKey(reqs[i]) == key
  {
    if reqs != [] {
      var rest := reqs[1..];
      AllHits(rest, key);
      assert (forall i :: 0 <= i < |reqs| ==> WholeKey(reqs[i]) == key)
         <==> WholeKey(reqs[0]) == key && forall i :: 0 <= i < |rest| ==> WholeKey(rest[i]) == key by {
        assert forall i :: 0 <= i < |rest| ==> rest[i] == reqs[1..][i];
      }
    }
  }

  /**
   Over a trace of requests, the count at every key grows by exactly the number
   of requests counted under it, matched or not (as long as it stays below the
   int limit).
   */
  lemma {:induction false} ServeAllCounts(s: Servlet, reqs: seq<Request>, key: string)
    requires CountOf(s.accesses, key) + |reqs| <= INT_MAX
    decreases |reqs|
    ensures CountOf(ServeAll(s, reqs).accesses, key) == CountOf(s.accesses, key) + Hits(reqs, key)
  {
    if reqs != [] {
      var next := Service(s, reqs[0]).servlet;
      assert CountOf(next.accesses, key) == CountOf(s.accesses, key) + (if WholeKey(reqs[0]) == key then 1 else 0);
      ServeAllCounts(next, reqs[1..], key);
    }
  }

  /**
   Round trip: after `expect(method, testUrl, code, body)`, a request whose
   method matches up to case and whose whole path is the registered path is
   answered with that code and body, unless an error is registered there.
   */
  lemma ExpectThenServe(s: Servlet, url: UrlFile, httpMethod: string, testUrl: string, code: Int32, body: string, req: Request)
    requires EqualIgnoringCase(httpMethod, req.httpMethod)
    requires WholePath(req) == GetPath(url, testUrl)
    requires WholeKey(req) !in s.errors
    ensures Service(Expect(s, url, httpMethod, testUrl, code, Some(body)), req).reply == SetStatus(code, WriteText(body))
  {
    AccessKeyCaseInsensitive(httpMethod, req.httpMethod, WholePath(req));
  }

  /** Round trip for a stream body: the registered code is set and the stream is copied to the response. */
  lemma ExpectStreamThenServe(s: Servlet, url: UrlFile, httpMethod: string, testUrl: string, code: Int32, stream: StreamToken, req: Request)
    requires EqualIgnoringCase(httpMethod, req.httpMethod)
    requires WholePath(req) == GetPath(url, testUrl)
    requires WholeKey(req) !in s.errors
    ensures Service(ExpectStream(s, url, httpMethod, testUrl, code, Some(stream)), req).reply == SetStatus(code, CopyStream(stream))
  {
    AccessKeyCaseInsensitive(httpMethod, req.httpMethod, WholePath(req));
  }

  /**
   A registered error wins over an expectation at the same key whichever was
   registered first: both orders answer with the error.
   */
  lemma ErrorWinsInEitherOrder(
    s: Servlet, url: UrlFile, httpMethod: string, testUrl: string,
    errorCode: Int32, error: Option<string>, code: Int32, body: Option<string>, req: Request)
    requires EqualIgnoringCase(httpMethod, req.httpMethod)
    requires WholePath(req) == GetPath(url, testUrl)
    ensures Service(Expect(RegisterException(s, url, httpMethod, testUrl, errorCode, error), url, httpMethod, testUrl, code, body), req).reply
         == RenderError(Fixed(TextContent(errorCode, error)))
    ensures Service(RegisterException(Expect(s, url, httpMethod, testUrl, code, body), url, httpMethod, testUrl, errorCode, error), req).reply
         == RenderError(Fixed(TextContent(errorCode, error)))
  {
    AccessKeyCaseInsensitive(httpMethod, req.httpMethod, WholePath(req));
  }

  /**
   The bare-URI tier never overrides the whole-path tier: an expectation at
   the whole path answers even when an error is registered at the bare URI.
   */
  lemma WholePathBeatsBareError(s: Servlet, req: Request)
    requires req.query.Some?
    requires WholeKey(req) !in s.errors && WholeKey(req) in s.expectations
    requires SimpleKey(req) in s.errors
    ensures Service(s, req).reply == RenderExpectation(s.expectations[WholeKey(req)].payload)
  {
  }

  /** Re-registering an expectation replaces the earlier one: only the last registration is kept. */
  lemma ExpectReplaces(s: Servlet, url: UrlFile, httpMethod: string, testUrl: string, c1: Int32, b1: Option<string>, c2: Int32, b2: Option<string>)
    ensures Expect(Expect(s, url, httpMethod, testUrl, c1, b1), url, httpMethod, testUrl, c2, b2)
         == Expect(s, url, httpMethod, testUrl, c2, b2)
  {
  }
}

=== FILE: http.dfy ===
/**
 The servlet-facing vocabulary shared by both dispatchers: registered response
 contents, the request as the dispatcher sees it, and what a dispatch does to
 the servlet response object.
 */
module Http {
  import opened Wrappers
  import opened JavaInt

  /** An `ExpectationHandler` callback; what it does is outside the model. */
  datatype HandlerToken = HandlerToken(id: nat)

  /** A registered `InputStream` body; its bytes are outside the model. */
  datatype StreamToken = StreamToken(id: nat)

  /** A registered status code with a literal body, a body stream, or no body at all. */
  datatype Content =
    | Text(code: Int32, body: string)
    | Stream(code: Int32, stream: StreamToken)
    | StatusOnly(code: Int32)

  /** The content a `ContentResponse` built from a code and a (nullable) String body carries. */
  function TextContent(code: Int32, body: Option<string>): (c: Content)
    ensures c.code == code && !c.Stream?
    ensures c.Text? <==> body.Some?
    ensures c.Text? ==> c.body == body.value
  {
    match body
    case Some(b) => Text(code, b)
    case None => StatusOnly(code)
  }

  /** The content a `ContentResponse` built from a code and a (nullable) InputStream carries. */
  function StreamContent(code: Int32, stream: Option<StreamToken>): (c: Content)
    ensures c.code == code && !c.Text?
    ensures c.Stream? <==> stream.Some?
    ensures c.Stream? ==> c.stream == stream.value
  {
    match stream
    case Some(st) => Stream(code, st)
    case None => StatusOnly(code)
  }

  /** What is written to the response body after the status is set. */
  datatype BodyKind = NoBody | WriteText(text: string) | CopyStream(stream: StreamToken)

  /** The body a content writes: the string through the writer, the stream copied, or nothing. */
  function BodyOf(c: Content): BodyKind
  {
    match c
    case Text(_, b) => WriteText(b)
    case Stream(_, st) => CopyStream(st)
    case StatusOnly(_) => NoBody
  }

  /** The calls a dispatch makes on the servlet response. */
  datatype Reply =
      /** the handler is given the request and response; nothing else is written */
    | Delegated(handler: HandlerToken)
      /** `sendError(code)` or `sendError(code, message)` */
    | SendError(code: Int32, message: Option<string>)
      /** `sendError(code)`, then the body (if any) written through the writer */
    | SendErrorThenWrite(code: Int32, written: Option<string>)
      /** `setStatus(code)`, then the body */
    | SetStatus(code: Int32, body: BodyKind)

  /** `resp.setStatus(404)` with nothing written: the reply for an unmatched request. */
  const NotFound: Reply := SetStatus(404, NoBody)

  /** The status a reply sets, unknown when a handler took over. */
  function StatusOf(r: Reply): (s: Option<Int32>)
    ensures s.None? <==> r.Delegated?
  {
    if r.Delegated? then None else Some(r.code)
  }

  /** An inbound request: `getMethod()`, `getRequestURI()` and the nullable `getQueryString()`. */
  datatype Request = Request(httpMethod: string, uri: string, query: Option<string>)
}

=== FILE: java_int.dfy ===
/**
 Java's 32-bit `int` arithmetic: two's-complement wrap-around, `Math.abs`
 (which overflows on the minimum value) and the truncating `%` operator.
 */
module JavaInt {

  const INT_MIN: int := -0x8000_0000
  const INT_MAX: int := 0x7fff_ffff
  const TWO_32: int := 0x1_0000_0000

  type Int32 = x: int | INT_MIN <= x <= INT_MAX

  /** Mathematical absolute value (no overflow). */
  function MathAbs(x: int): (r: int)
    ensures r >= 0
  {
    if x < 0 then -x else x
  }

  /** Reduction of a mathematical integer to the 32-bit value with the same low 32 bits. */
  function Wrap(x: int): (r: Int32)
    ensures INT_MIN <= x <= INT_MAX ==> r == x
    ensures INT_MAX < x <= INT_MAX + TWO_32 ==> r == x - TWO_32
    ensures INT_MIN - TWO_32 <= x < INT_MIN ==> r == x + TWO_32
  {
    (x - INT_MIN) % TWO_32 + INT_MIN
  }

  /** `a + b` on Java ints. */
  function Add(a: Int32, b: Int32): (r: Int32)
    ensures INT_MIN <= a + b <= INT_MAX ==> r == a + b
    ensures a + b > INT_MAX ==> r == a + b - TWO_32
    ensures a + b < INT_MIN ==> r == a + b + TWO_32
  {
    Wrap(a + b)
  }

  /** `Math.abs(int)`: exact except on the minimum value, which it returns unchanged. */
  function Abs(x: Int32): (r: Int32)
    ensures x != INT_MIN ==> r >= 0 && r == MathAbs(x)
    ensures x == INT_MIN ==> r == INT_MIN
  {
    Wrap(if x < 0 then -(x as int) else x as int)
  }

  /** Java's `a % b`: the remainder of division truncated toward zero, so it takes the sign of `a`. */
  function Rem(a: Int32, b: Int32): (r: Int32)
    requires b != 0
    ensures a >= 0 ==> 0 <= r < MathAbs(b)
    ensures a < 0 ==> -MathAbs(b) < r <= 0
    ensures MathAbs(r) == MathAbs(a) % MathAbs(b)
  {
    var m := MathAbs(a) % MathAbs(b);
    if a < 0 then -m else m
  }
}

=== FILE: port_finder.dfy ===
/**
 `PortFinder.findPortFor`: up to `maxTries` attempts, each handing a freshly
 drawn candidate port to a consumer, retrying only on `IOException`.
 The random draws (`Random.nextInt()`) are supplied as `draw(i)` for attempt i.
 The consumer is a stateful callback in Java, so the model passes it the
 attempt number as well: `consumer(i, port)` is what the i-th call does, and
 the same port may fail on one attempt and succeed on a later one.
 */
module PortFinder {
  import opened JavaInt

  const PORT_BASE: Int32 := 1024
  const PORT_SPAN: Int32 := 30000

  /** `1024 + (Math.abs(r) % 30000)` on Java ints. */
  function CandidatePort(r: Int32): (p: Int32)
    ensures r != INT_MIN ==> PORT_BASE <= p <= PORT_BASE + PORT_SPAN - 1
    ensures r != INT_MIN ==> p == PORT_BASE + MathAbs(r) % PORT_SPAN
    ensures r == INT_MIN ==> p == -22624
  {
    Add(PORT_BASE, Rem(Abs(r), PORT_SPAN))
  }

  /** An unchecked exception; which one is outside the model. */
  datatype RuntimeError = RuntimeError(id: nat)

  /** What one `consumer.call(port)` does. */
  datatype Attempt<T> = Returned(value: T) | ThrowsIO | Throws(error: RuntimeError)

  /** How `findPortFor` ends: a result, an `IllegalStateException`, or a consumer exception passed through. */
  datatype Outcome<T> = Found(value: T) | Exhausted | Propagated(error: RuntimeError)

  /** The outcome together with the ports handed to the consumer, in order. */
  datatype Search<T> = Search(outcome: Outcome<T>, tried: seq<Int32>)

  /** Attempts left when the loop counter is `i`. */
  function Remaining(maxTries: Int32, i: nat): nat
  {
    if i < maxTries then maxTries - i else 0
  }

  /**
   What the loop guarantees about a search started at counter `i`: at most
   the remaining budget is tried, attempt i + j gets the candidate from draw
   i + j, every attempt but the last threw `IOException`, and the last one
   decides the outcome (exhaustion only after the whole budget).
   */
  ghost predicate Explains<T>(maxTries: Int32, draw: nat -> Int32, consumer: (nat, Int32) -> Attempt<T>, i: nat, r: Search<T>)
  {
    && |r.tried| <= Remaining(maxTries, i)
    && (forall j :: 0 <= j < |r.tried| ==> r.tried[j] == CandidatePort(draw(i + j)))
    && (forall j :: 0 <= j < |r.tried| - 1 ==> consumer(i + j, r.tried[j]).ThrowsIO?)
    && (r.outcome.Found? ==>
          0 < |r.tried| && consumer(i + |r.tried| - 1, r.tried[|r.tried| - 1]) == Returned(r.outcome.value))
    && (r.outcome.Propagated? ==>
          0 < |r.tried| && consumer(i + |r.tried| - 1, r.tried[|r.tried| - 1]) == Throws(r.outcome.error))
    && (r.outcome.Exhausted? ==>
          |r.tried| == Remaining(maxTries, i) &&
          (0 < |r.tried| ==> consumer(i + |r.tried| - 1, r.tried[|r.tried| - 1]).ThrowsIO?))
  }

  /** The loop of `findPortFor` from counter value `i` on. */
  function SearchFrom<T>(maxTries: Int32, draw: nat -> Int32, consumer: (nat, Int32) -> Attempt<T>, i: nat): (r: Search<T>)
    decreases Remaining(maxTries, i)
    ensures Explains(maxTries, draw, consumer, i, r)
  {
    if i >= maxTries then
      Search(Exhausted, [])
    else
      var port := CandidatePort(draw(i));
      match consumer(i, port)
      case Returned(v) => Search(Found(v), [port])
      case Throws(e) => Search(Propagated(e), [port])
      case ThrowsIO =>
        var rest := SearchFrom(maxTries, draw, consumer, i + 1);
        ShiftSearch(maxTries, draw, consumer, i, rest);
        Search(rest.outcome, [port] + rest.tried)
  }

  /** An attempt at counter i that threw `IOException`, followed by the search from i + 1. */
  lemma ShiftSearch<T>(maxTries: Int32, draw: nat -> Int32, consumer: (nat, Int32) -> Attempt<T>, i: nat, rest: Search<T>)
    requires i < maxTries
    requires consumer(i, CandidatePort(draw(i))).ThrowsIO?
    requires Explains(maxTries, draw, consumer, i + 1, rest)
    ensures Explains(maxTries, draw, consumer, i, Search(rest.outcome, [CandidatePort(draw(i))] + rest.tried))
  {
    var tried := [CandidatePort(draw(i))] + rest.tried;
    forall j | 0 <= j < |tried|
      ensures tried[j] == CandidatePort(draw(i + j))
    {
      if j > 0 {
        assert tried[j] == rest.tried[j - 1];
      }
    }
    forall j | 0 <= j < |tried| - 1
      ensures consumer(i + j, tried[j]).ThrowsIO?
    {
      if j > 0 {
        assert tried[j] == rest.tried[j - 1];
        assert i + j == i + 1 + (j - 1);
      }
    }
    if 0 < |rest.tried| {
      assert tried[|tried| - 1] == rest.tried[|rest.tried| - 1];
    }
  }

  /**
   `findPortFor(maxTries, consumer)`: the consumer is called at most `maxTries`
   times, attempt j with the candidate drawn from `draw(j)`; every attempt but
   the last threw `IOException`; the last one decides the outcome.
   */
  function FindPortFor<T>(maxTries: Int32, draw: nat -> Int32, consumer: (nat, Int32) -> Attempt<T>): (r: Search<T>)
    ensures maxTries <= 0 ==> r == Search(Exhausted, [])
    ensures |r.tried| <= Remaining(maxTries, 0)
    ensures forall j :: 0 <= j < |r.tried| ==> r.tried[j] == CandidatePort(draw(j))
    ensures forall j :: 0 <= j < |r.tried| - 1 ==> consumer(j, r.tried[j]).ThrowsIO?
    ensures r.outcome.Found? ==>
              0 < |r.tried| && consumer(|r.tried| - 1, r.tried[|r.tried| - 1]) == Returned(r.outcome.value)
    ensures r.outcome.Propagated? ==>
              0 < |r.tried| && consumer(|r.tried| - 1, r.tried[|r.tried| - 1]) == Throws(r.outcome.error)
    ensures r.outcome.Exhausted? ==>
              |r.tried| == Remaining(maxTries, 0) && forall j :: 0 <= j < |r.tried| ==> consumer(j, r.tried[j]).ThrowsIO?
  {
    SearchFrom(maxTries, draw, consumer, 0)
  }

  /**
   If attempt `k` is the first whose consumer call does not throw
   `IOException`, the search makes exactly k + 1 attempts and ends with that
   call's result: the first success is returned and nothing more is tried.
   */
  lemma FirstNonIOAttemptDecides<T>(maxTries: Int32, draw: nat -> Int32, consumer: (nat, Int32) -> Attempt<T>, k: nat)
    requires k < maxTries
    requires forall j :: 0 <= j < k ==> consumer(j, CandidatePort(draw(j))).ThrowsIO?
    requires !consumer(k, CandidatePort(draw(k))).ThrowsIO?
    ensures FindPortFor(maxTries, draw, consumer).tried == Tried(draw, k + 1)
    ensures consumer(k, CandidatePort(draw(k))).Returned? ==>
              FindPortFor(maxTries, draw, consumer).outcome == Found(consumer(k, CandidatePort(draw(k))).value)
    ensures consumer(k, CandidatePort(draw(k))).Throws? ==>
              FindPortFor(maxTries, draw, consumer).outcome == Propagated(consumer(k, CandidatePort(draw(k))).error)
  {
    var r := FindPortFor(maxTries, draw, consumer);
    var n := |r.tried|;
    assert k < n ==> r.tried[k] == CandidatePort(draw(k));
    assert 0 < n ==> r.tried[n - 1] == CandidatePort(draw(n - 1));
    assert n == k + 1;
    assert r.tried == Tried(draw, n);
  }

  /** When every one of the `maxTries` attempts throws `IOException`, the search is exhausted after trying them all. */
  lemma AllIOFailuresExhaust<T>(maxTries: Int32, draw: nat -> Int32, consumer: (nat, Int32) -> Attempt<T>)
    requires forall j :: 0 <= j < maxTries ==> consumer(j, CandidatePort(draw(j))).ThrowsIO?
    ensures FindPortFor(maxTries, draw, consumer) == Search(Exhausted, Tried(draw, Remaining(maxTries, 0)))
  {
    var r := FindPortFor(maxTries, draw, consumer);
    var n := |r.tried|;
    assert 0 < n ==> consumer(n - 1, r.tried[n - 1]).ThrowsIO?;
    assert r.outcome.Exhausted?;
    assert r.tried == Tried(draw, n);
  }

  /** Conversely, a search that ends exhausted had every one of its `maxTries` attempts throw `IOException`. */
  lemma ExhaustedMeansAllIOFailures<T>(maxTries: Int32, draw: nat -> Int32, consumer: (nat, Int32) -> Attempt<T>)
    ensures FindPortFor(maxTries, draw, consumer).outcome.Exhausted? ==>
              forall j :: 0 <= j < maxTries ==> consumer(j, CandidatePort(draw(j))).ThrowsIO?
  {
    var r := FindPortFor(maxTries, draw, consumer);
    if r.outcome.Exhausted? {
      forall j | 0 <= j < maxTries
        ensures consumer(j, CandidatePort(draw(j))).ThrowsIO?
      {
        assert r.tried[j] == CandidatePort(draw(j));
        assert j < |r.tried| - 1 || j == |r.tried| - 1;
      }
    }
  }

  /** A search that found a result found it on its last attempt, every earlier attempt having thrown `IOException`. */
  lemma FoundAfterIOFailures<T>(maxTries: Int32, draw: nat -> Int32, consumer: (nat, Int32) -> Attempt<T>)
    ensures var r := FindPortFor(maxTries, draw, consumer);
            r.outcome.Found? ==>
              && 0 < |r.tried| <= Remaining(maxTries, 0)
              && r.tried[|r.tried| - 1] == CandidatePort(draw(|r.tried| - 1))
              && consumer(|r.tried| - 1, CandidatePort(draw(|r.tried| - 1))) == Returned(r.outcome.value)
              && forall j :: 0 <= j < |r.tried| - 1 ==> consumer(j, CandidatePort(draw(j))).ThrowsIO?
  {
    var r := FindPortFor(maxTries, draw, consumer);
    if r.outcome.Found? {
      forall j | 0 <= j < |r.tried| - 1
        ensures consumer(j, CandidatePort(draw(j))).ThrowsIO?
      {
        assert r.tried[j] == CandidatePort(draw(j));
      }
    }
  }

  /** The first `n` candidate ports. */
  function Tried(draw: nat -> Int32, n: nat): (ports: seq<Int32>)
    ensures |ports| == n
    ensures forall j :: 0 <= j < n ==> ports[j] == CandidatePort(draw(j))
  {
    seq<Int32>(n, (j: nat) => CandidatePort(draw(j)))
  }
}

=== FILE: test_http_server.dfy ===
/**
 The legacy `TestHttpServer` of the top-level module and its inner
 `ExpectationServlet`. Compared with the core dispatcher it keeps only the
 URL's path at registration (the query is dropped), keys a request by the
 decoded URI path with no query and no second tier, writes an error's body
 after `sendError(code)`, and its error overloads without a method register
 GET only.
 */
module TestHttpServer {
  import opened Wrappers
  import opened JavaInt
  import opened AccessKeys
  import opened Http
  import Core = ExpectationServlet

  /** `new URL(s).getPath()`; None when the constructor throws `MalformedURLException`. */
  type UrlPath = string -> Option<string>

  /** `new URI(s).getPath()`; None when the constructor throws `URISyntaxException`. */
  type UriPath = string -> Option<string>

  /** A registration: the method and path it was made for, and its content. */
  datatype LegacyResponse = LegacyResponse(httpMethod: string, path: string, content: Content)

  datatype LegacyServlet = LegacyServlet(
    baseResource: string,
    expectations: map<string, LegacyResponse>,
    errors: map<string, LegacyResponse>,
    accesses: map<string, Int32>)

  datatype LegacyServed = LegacyServed(servlet: LegacyServlet, reply: Reply)

  /** `service` rethrows a request URI it cannot parse as a `ServletException`. */
  datatype ServiceError = CannotParseRequestUri

  const DEFAULT_ERROR_CODE: Int32 := 500

  /** The legacy constructor: null becomes "/", anything else is kept verbatim. */
  function BaseResource(base: Option<string>): (r: string)
    ensures base.None? ==> r == "/"
    ensures base.Some? ==> r == base.value
  {
    if base.None? then "/" else base.value
  }

  /** The two constructors agree on a base that starts with "/" and disagree on one that does not. */
  lemma BaseResourceVersusCore(b: string)
    ensures 0 < |b| && b[0] == '/' ==> BaseResource(Some(b)) == Core.BaseResource(Some(b))
    ensures !(0 < |b| && b[0] == '/') ==> BaseResource(Some(b)) != Core.BaseResource(Some(b))
  {
    if !(0 < |b| && b[0] == '/') {
      assert |Core.BaseResource(Some(b))| == |b| + 1;
    }
  }

  function Init(base: Option<string>): (s: LegacyServlet)
    ensures s.baseResource == BaseResource(base)
    ensures s.expectations == map[] && s.errors == map[] && s.accesses == map[]
  {
    LegacyServlet(BaseResource(base), map[], map[], map[])
  }

  /** `getPath(path)`: the URL's path without its query, or the string itself when it is not a URL. */
  function GetPath(url: UrlPath, testUrl: string): (p: string)
    ensures url(testUrl).Some? ==> p == url(testUrl).value
    ensures url(testUrl).None? ==> p == testUrl
  {
    match url(testUrl)
    case Some(path) => path
    case None => testUrl
  }

  function RegistrationKey(url: UrlPath, httpMethod: string, testUrl: string): string
  {
    AccessKey(httpMethod, GetPath(url, testUrl))
  }

  /** `registerException(method, path, code, error)`: only the error map changes. */
  function RegisterException(s: LegacyServlet, url: UrlPath, httpMethod: string, path: string, code: Int32, error: Option<string>): (r: LegacyServlet)
    ensures Stored(r.errors, s.errors, RegistrationKey(url, httpMethod, path),
                   LegacyResponse(httpMethod, GetPath(url, path), TextContent(code, error)))
    ensures r.expectations == s.expectations && r.accesses == s.accesses && r.baseResource == s.baseResource
  {
    s.(errors := Put(s.errors, RegistrationKey(url, httpMethod, path),
                     LegacyResponse(httpMethod, GetPath(url, path), TextContent(code, error))))
  }

  /** `expect(method, testUrl, code, String body)`: only the expectation map changes. */
  function Expect(s: LegacyServlet, url: UrlPath, httpMethod: string, testUrl: string, code: Int32, body: Option<string>): (r: LegacyServlet)
    ensures Stored(r.expectations, s.expectations, RegistrationKey(url, httpMethod, testUrl),
                   LegacyResponse(httpMethod, GetPath(url, testUrl), TextContent(code, body)))
    ensures r.errors == s.errors && r.accesses == s.accesses && r.baseResource == s.baseResource
  {
    s.(expectations := Put(s.expectations, RegistrationKey(url, httpMethod, testUrl),
                           LegacyResponse(httpMethod, GetPath(url, testUrl), TextContent(code, body))))
  }

  /** `expect(method, testUrl, code, InputStream)`: only the expectation map changes. */
  function ExpectStream(s: LegacyServlet, url: UrlPath, httpMethod: string, testUrl: string, code: Int32, stream: Option<StreamToken>): (r: LegacyServlet)
    ensures Stored(r.expectations, s.expectations, RegistrationKey(url, httpMethod, testUrl),
                   LegacyResponse(httpMethod, GetPath(url, testUrl), StreamContent(code, stream)))
    ensures r.errors == s.errors && r.accesses == s.accesses && r.baseResource == s.baseResource
  {
    s.(expectations := Put(s.expectations, RegistrationKey(url, httpMethod, testUrl),
                           LegacyResponse(httpMethod, GetPath(url, testUrl), StreamContent(code, stream))))
  }

  /**
   Registration keeps only the URL's path: two URLs with the same path (say,
   differing only in their query) share one entry, and the later registration
   replaces the earlier.
   */
  lemma SamePathRegistrationsCollide(s: LegacyServlet, url: UrlPath, httpMethod: string, u1: string, u2: string,
                                     c1: Int32, b1: Option<string>, c2: Int32, b2: Option<string>)
    requires url(u1).Some? && url(u1) == url(u2)
    ensures Expect(Expect(s, url, httpMethod, u1, c1, b1), url, httpMethod, u2, c2, b2)
         == Expect(s, url, httpMethod, u2, c2, b2)
  {
  }

  /** A registered error: `sendError(code)`, then its body (if any) through the writer. */
  function RenderError(c: Content): (r: Reply)
    ensures r.SendErrorThenWrite? && r.code == c.code
    ensures r.written.Some? <==> c.Text?
    ensures c.Text? ==> r.written == Some(c.body)
  {
    SendErrorThenWrite(c.code, if c.Text? then Some(c.body) else None)
  }

  /** A registered expectation: `setStatus(code)`, then the body string, else the stream. */
  function RenderExpectation(c: Content): (r: Reply)
    ensures StatusOf(r) == Some(c.code)
    ensures c.Text? ==> r == SetStatus(c.code, WriteText(c.body))
    ensures c.Stream? ==> r == SetStatus(c.code, CopyStream(c.stream))
    ensures c.StatusOnly? ==> r == SetStatus(c.code, NoBody)
  {
    SetStatus(c.code, BodyOf(c))
  }

  /** The key a request is counted and looked up under: the method upper-cased, a space, the decoded URI path. */
  function RequestKey(uriPath: UriPath, req: Request): (k: Option<string>)
    ensures k.Some? <==> uriPath(req.uri).Some?
    ensures k.Some? ==> k.value == AccessKey(req.httpMethod, uriPath(req.uri).value)
  {
    match uriPath(req.uri)
    case Some(wholePath) => Some(AccessKey(req.httpMethod, wholePath))
    case None => None
  }

  /**
   `service(req, resp)`: an unparseable URI throws before anything is counted;
   otherwise the request is counted under its key, and answered with the error
   at that key, else the expectation, else 404.
   */
  function Service(s: LegacyServlet, uriPath: UriPath, req: Request): (r: Result<LegacyServed, ServiceError>)
    ensures r.Failure? <==> uriPath(req.uri).None?
    ensures r.Success? ==>
              && r.value.servlet.baseResource == s.baseResource
              && r.value.servlet.expectations == s.expectations && r.value.servlet.errors == s.errors
              && Counted(r.value.servlet.accesses, s.accesses, RequestKey(uriPath, req).value)
    ensures r.Success? && RequestKey(uriPath, req).value in s.errors ==>
              r.value.reply == RenderError(s.errors[RequestKey(uriPath, req).value].content)
    ensures r.Success? && RequestKey(uriPath, req).value !in s.errors && RequestKey(uriPath, req).value in s.expectations ==>
              r.value.reply == RenderExpectation(s.expectations[RequestKey(uriPath, req).value].content)
    ensures r.Success? && RequestKey(uriPath, req).value !in s.errors && RequestKey(uriPath, req).value !in s.expectations ==>
              r.value.reply == NotFound
  {
    match uriPath(req.uri)
    case None => Failure(CannotParseRequestUri)
    case Some(wholePath) =>
      var key := ToUpper(req.httpMethod) + " " + wholePath;
      var counted := s.(accesses := CountAccess(s.accesses, key));
      var reply :=
        if key in counted.errors then RenderError(counted.errors[key].content)
        else match Get(counted.expectations, key)
          case Some(expectation) => RenderExpectation(expectation.content)
          case None => NotFound;
      Success(LegacyServed(counted, reply))
  }

  /** The legacy dispatcher never looks at the query string: two requests that differ only there are served alike. */
  lemma ServiceIgnoresQuery(s: LegacyServlet, uriPath: UriPath, httpMethod: string, uri: string, q1: Option<string>, q2: Option<string>)
    ensures Service(s, uriPath, Request(httpMethod, uri, q1)) == Service(s, uriPath, Request(httpMethod, uri, q2))
  {
  }

  /**
   Round trip: after `expect(method, testUrl, code, body)`, a request whose
   method matches up to case and whose decoded path is the registered path is
   answered with that code and body, unless an error is registered there.
   */
  lemma ExpectThenServe(s: LegacyServlet, url: UrlPath, uriPath: UriPath, httpMethod: string, testUrl: string,
                        code: Int32, body: string, req: Request)
    requires EqualIgnoringCase(httpMethod, req.httpMethod)
    requires uriPath(req.uri) == Some(GetPath(url, testUrl))
    requires RequestKey(uriPath, req).value !in s.errors
    ensures Service(Expect(s, url, httpMethod, testUrl, code, Some(body)), uriPath, req)
         == Success(LegacyServed(
              Expect(s, url, httpMethod, testUrl, code, Some(body)).(accesses := CountAccess(s.accesses, RequestKey(uriPath, req).value)),
              SetStatus(code, WriteText(body))))
  {
    AccessKeyCaseInsensitive(httpMethod, req.httpMethod, GetPath(url, testUrl));
  }

  /** Round trip for a stream body: the registered code is set, the stream is copied, and the request is counted. */
  lemma ExpectStreamThenServe(s: LegacyServlet, url: UrlPath, uriPath: UriPath, httpMethod: string, testUrl: string,
                              code: Int32, stream: StreamToken, req: Request)
    requires EqualIgnoringCase(httpMethod, req.httpMethod)
    requires uriPath(req.uri) == Some(GetPath(url, testUrl))
    requires RequestKey(uriPath, req).value !in s.errors
    ensures Service(ExpectStream(s, url, httpMethod, testUrl, code, Some(stream)), uriPath, req)
         == Success(LegacyServed(
              ExpectStream(s, url, httpMethod, testUrl, code, Some(stream)).(accesses := CountAccess(s.accesses, RequestKey(uriPath, req).value)),
              SetStatus(code, CopyStream(stream))))
  {
    AccessKeyCaseInsensitive(httpMethod, req.httpMethod, GetPath(url, testUrl));
  }

  /** A registered error wins over an expectation at the same key, in either registration order. */
  lemma ErrorWinsInEitherOrder(
    s: LegacyServlet, url: UrlPath, uriPath: UriPath, httpMethod: string, testUrl: string,
    errorCode: Int32, error: Option<string>, code: Int32, body: Option<string>, req: Request)
    requires EqualIgnoringCase(httpMethod, req.httpMethod)
    requires uriPath(req.uri) == Some(GetPath(url, testUrl))
    ensures Service(Expect(RegisterException(s, url, httpMethod, testUrl, errorCode, error), url, httpMethod, testUrl, code, body), uriPath, req).value.reply
         == RenderError(TextContent(errorCode, error))
    ensures Service(RegisterException(Expect(s, url, httpMethod, testUrl, code, body), url, httpMethod, testUrl, errorCode, error), uriPath, req).value.reply
         == RenderError(TextContent(errorCode, error))
  {
    AccessKeyCaseInsensitive(httpMethod, req.httpMethod, GetPath(url, testUrl));
  }

  /** Outer `expect(testUrl, code, String body)`: GET with the body, HEAD with the same code and no body, nothing else touched. */
  function ExpectGetHead(s: LegacyServlet, url: UrlPath, testUrl: string, code: Int32, body: Option<string>): (r: LegacyServlet)
    ensures var path := GetPath(url, testUrl);
            StoredPair(r.expectations, s.expectations,
                       AccessKey("GET", path), LegacyResponse("GET", path, TextContent(code, body)),
                       AccessKey("HEAD", path), LegacyResponse("HEAD", path, StatusOnly(code)))
    ensures r.errors == s.errors && r.accesses == s.accesses && r.baseResource == s.baseResource
  {
    GetHeadKeysDistinct(GetPath(url, testUrl));
    Expect(Expect(s, url, "GET", testUrl, code, body), url, "HEAD", testUrl, code, None)
  }

  /** Outer `expect(testUrl, code, InputStream)`: GET with the stream, HEAD with the same code and no body, nothing else touched. */
  function ExpectStreamGetHead(s: LegacyServlet, url: UrlPath, testUrl: string, code: Int32, stream: Option<StreamToken>): (r: LegacyServlet)
    ensures var path := GetPath(url, testUrl);
            StoredPair(r.expectations, s.expectations,
                       AccessKey("GET", path), LegacyResponse("GET", path, StreamContent(code, stream)),
                       AccessKey("HEAD", path), LegacyResponse("HEAD", path, StatusOnly(code)))
    ensures r.errors == s.errors && r.accesses == s.accesses && r.baseResource == s.baseResource
  {
    GetHeadKeysDistinct(GetPath(url, testUrl));
    Expect(ExpectStream(s, url, "GET", testUrl, code, stream), url, "HEAD", testUrl, code, None)
  }

  /** Outer `registerException(url, error, code)`: an error for GET only; the HEAD entry is left as it was. */
  function RegisterExceptionGet(s: LegacyServlet, url: UrlPath, testUrl: string, error: Option<string>, code: Int32): (r: LegacyServlet)
    ensures var path := GetPath(url, testUrl);
            Stored(r.errors, s.errors, AccessKey("GET", path), LegacyResponse("GET", path, TextContent(code, error)))
    ensures var head := AccessKey("HEAD", GetPath(url, testUrl));
            && (head in r.errors <==> head in s.errors)
            && (head in s.errors ==> r.errors[head] == s.errors[head])
    ensures r.expectations == s.expectations && r.accesses == s.accesses && r.baseResource == s.baseResource
  {
    GetHeadKeysDistinct(GetPath(url, testUrl));
    RegisterException(s, url, "GET", testUrl, code, error)
  }

  /** Outer `registerException(url, error)`: GET only, code 500. */
  function RegisterExceptionGetDefault(s: LegacyServlet, url: UrlPath, testUrl: string, error: Option<string>): (r: LegacyServlet)
    ensures r == RegisterException(s, url, "GET", testUrl, DEFAULT_ERROR_CODE, error)
  {
    RegisterException(s, url, "GET", testUrl, 500, error)
  }

  /** Outer `registerException(method, url, error)`: that method, code 500. */
  function RegisterExceptionForDefault(s: LegacyServlet, url: UrlPath, httpMethod: string, testUrl: string, error: Option<string>): (r: LegacyServlet)
    ensures r == RegisterException(s, url, httpMethod, testUrl, DEFAULT_ERROR_CODE, error)
  {
    RegisterException(s, url, httpMethod, testUrl, 500, error)
  }

  /**
   Unlike the core server, the legacy error overloads without a method leave
   HEAD alone: a HEAD request still gets the HEAD expectation the GET/HEAD
   `expect` registered, while GET gets the error.
   */
  lemma RegisterExceptionLeavesHead(s: LegacyServlet, url: UrlPath, uriPath: UriPath, testUrl: string,
                                    code: Int32, body: Option<string>, error: Option<string>, uri: string)
    requires uriPath(uri) == Some(GetPath(url, testUrl))
    requires AccessKey("HEAD", GetPath(url, testUrl)) !in s.errors
    ensures var r := RegisterExceptionGetDefault(ExpectGetHead(s, url, testUrl, code, body), url, testUrl, error);
            && Service(r, uriPath, Request("HEAD", uri, None)).value.reply == SetStatus(code, NoBody)
            && Service(r, uriPath, Request("GET", uri, None)).value.reply == RenderError(TextContent(DEFAULT_ERROR_CODE, error))
  {
    GetHeadKeysDistinct(GetPath(url, testUrl));
  }
}

=== FILE: wrappers.dfy ===
/** Failure-compatible wrappers used for Java's nullable references and exceptions. */
module Wrappers {

  /** A Java reference that may be null. */
  datatype Option<+T> = None | Some(value: T)

  /** A call that either returns a value or throws. */
  datatype Result<+T, +E> = Success(value: T) | Failure(error: E)

  /** `Map.get`: the value stored at `k`, or None (Java's null) when `k` is absent. */
  function Get<K, V>(m: map<K, V>, k: K): (r: Option<V>)
    ensures r.Some? <==> k in m
    ensures r.Some? ==> r.value == m[k]
  {
    if k in m then Some(m[k]) else None
  }
}
